=== FILE: README.md ===
# A model of the decision logic of a CMS-backed portfolio site

The site is a personal portfolio built on a headless content-management system
(Contentstack). Under its React components and HTTP handlers sit small,
deterministic decision functions. This project models those functions in Dafny
and proves properties about them:

- how the delivery SDK's three result shapes are normalised, and the
  management-API fallback for the site configuration;
- the run-once setup latch;
- the provisioning routine. It posts the content types, creates each sample
  entry only when it is absent, publishes everything it created, and probes
  whether the five required content types exist;
- the static data queries: sort, filter and find;
- file and asset URL resolution;
- the setup gate and its 30-second "recently completed" flag;
- the theme and menu logic of the navigation bar, and the scroll handler that
  picks the active section;
- the first-run setup form and the `POST /api/setup` handler;
- the fallback chains and truncation rules of the page sections, and the page
  metadata.

Time, local storage, the network, the SDK, the file reader and the form's
completion callback are inputs. Each one is a parameter, or an oracle record
such as `Provisioning.Cms` that says how the CMS would answer each request. A
routine's observable behaviour is its result plus the ordered list of requests
it issues, pauses included.

Modules follow the source files:

- `Wrappers`, `Json`, `Text`, `Lists`, `Sorting` and `Site` hold the shared
  vocabulary: JavaScript values and truthiness, `startsWith`, `trim`,
  `parseInt`, slicing, stable sorting, and the CMS records.
- `Contentstack` and `Provisioning` model the two library files.
- `StaticData` models the in-memory data service.
- `FileUrl` models the `getFileUrl` function that Portfolio and Blog duplicate,
  and the hero's `getAvatarUrl`.
- `SetupGuard`, `ActiveSection`, `Navigation`, `Hero`, `About`, `Contact`,
  `Footer`, `WorkHistory`, `Blog`, `Portfolio`, `WelcomeSetup`, `SetupRoute`
  and `Metadata` model one component or handler each.

In the CMS records, an absent string field is `""` and an absent number is `0`.
JavaScript treats each of these the same as a missing value, since all are
falsy. A `null` record is read as the empty record, since `siteConfig?.field`
is then `undefined`.

## Model

| member | source | states |
|---|---|---|
| Contentstack.EnsureSetup | src/lib/contentstack.ts:126-135 | The latch is always set afterwards. A set latch makes the call a no-op that neither probes nor provisions. An unset latch probes, and provisioning happens exactly when the probe says the types are missing. |
| Contentstack.SetupRunsAtMostOnce | src/lib/contentstack.ts:126-135 | Over any number of calls in one process, whatever the probe answers, the probe runs at most once (never, if the latch was already set) and provisioning at most as often as the probe. |
| Contentstack.SetupCallsFromLatched | src/lib/contentstack.ts:127 | Once the latch is set, no further call probes or provisions. |
| Contentstack.NormaliseEntry | src/lib/contentstack.ts:159-175 | An entry is accepted only if it is a populated object, and only from the flat, nested or `entries` shape. When the first element is a list, the entry is accepted exactly when that inner list's first element is populated, with no fall-through to the flat case. |
| Contentstack.ShapesAgree | src/lib/contentstack.ts:160-174 | A populated object at the head of any of the three shapes is the normalised result, whatever follows it. |
| Contentstack.EmptyInnerListYieldsNothing | src/lib/contentstack.ts:161-165 | `[[], ...]` normalises to nothing, even when later elements hold entries. |
| Contentstack.ManagementFirst | src/lib/contentstack.ts:195-197 | The fallback yields an entry exactly when `data?.entries` is truthy with positive length, and that entry is `entries[0]`. |
| Contentstack.FromDelivery | src/lib/contentstack.ts:152-176 | A thrown SDK query yields nothing. Anything it yields is a populated, non-empty object, taken from one of the three shapes (see `NormaliseEntry`). |
| Contentstack.FromManagement | src/lib/contentstack.ts:179-202 | An entry comes only from an ok response with a parsed body, and it is the first element of that body's `entries`. |
| Contentstack.GetSiteConfiguration | src/lib/contentstack.ts:138-209 | With the types missing, the result is null after one `ensureSetup`. Otherwise the SDK's normalised entry wins; failing that, the management API's first entry when its response is ok; else null. The state is unchanged when the types exist. |
| Contentstack.ListOrEmpty | src/lib/contentstack.ts:226-238 | The result is always truthy. A thrown or null result gives `[]`; a truthy `result[0]` is returned as is; otherwise `[]`. |
| Contentstack.SingleOrNull | src/lib/contentstack.ts:245-250 | The result is null or a truthy value, and a truthy value is exactly `result[0][0]`. |
| Contentstack.HomeOrNull | src/lib/contentstack.ts:218-223 | The result is `result[0][0]` when truthy, else `result[0]` when truthy, else null, and null whenever reading throws. |
| Contentstack.GetList | src/lib/contentstack.ts:253-265 | A list getter leaves the process exactly as `ensureSetup` leaves it, so the latch is set. It returns the query's `result[0]` when reading it does not throw and the value is truthy, and `[]` otherwise. |
| Provisioning.MakeRequest | src/lib/contentstack-setup.ts:16-32 | Success returns the data. A failure is swallowed, returning null, exactly when it is a 422 whose `errors.title` is truthy; every other failure is rethrown. |
| Provisioning.OnlyTitled422IsSwallowed | src/lib/contentstack-setup.ts:26-30 | A 422 without a truthy `errors.title`, any other status, and a failure with no response are all rethrown. |
| Provisioning.PostTypes | src/lib/contentstack-setup.ts:402-410 | The types are posted in order, one request each. The loop succeeds exactly when every post returns. On failure, the last request made is the post that threw. |
| Provisioning.NewEntry | src/lib/contentstack-setup.ts:453-455 | A created entry is recorded only with a truthy `entry.uid`, under the item's content type. |
| Provisioning.Exists | src/lib/contentstack-setup.ts:429-442 | A probe that throws counts as "does not exist". An entry exists only when the probe returned a body with an `entries` member. The truthy, positive-length test itself is carried by `Absent` and the `CreateAll*` lemmas. |
| Provisioning.CreateAll | src/lib/contentstack-setup.ts:422-509 | The create-if-absent loop yields at most one entry per item, and its first request probes the first item. Its full behaviour is stated by `CreateStep` and the `CreateAll*` lemmas, against the reference definitions `Absent` and `CreatedFrom`. |
| Provisioning.CreateStep | src/lib/contentstack-setup.ts:446-458 | One item's step probes it, creates it only when the probe finds nothing, and pauses after a create that returned. A create that throws ends the phase there. |
| Provisioning.CreateAllProbes | src/lib/contentstack-setup.ts:429-509 | Items are probed in their fixed order: a prefix of them always, and all of them when no create threw. |
| Provisioning.CreateAllCreatesAbsent | src/lib/contentstack-setup.ts:446-509 | The items created are exactly the probed items the probe reported absent, in order. A failed probe counts as absent. |
| Provisioning.CreateAllCreatedList | src/lib/contentstack-setup.ts:453-505 | The created list holds exactly the create requests that returned a uid, in request order, and the creation phase publishes nothing. |
| Provisioning.CreateAllFailure | src/lib/contentstack-setup.ts:464-468 | The creation phase fails only through a create that threw, and that create is its last request. |
| Provisioning.PublishAll | src/lib/contentstack-setup.ts:516-542 | The publish loop issues one publish per created entry in order, and pauses after a publish only when that publish succeeded and more entries follow. |
| Provisioning.PublishesEveryEntry | src/lib/contentstack-setup.ts:516-542 | Every created entry is published exactly once, in creation order, however the publish requests answer. |
| Provisioning.PublishPicksNothingElse | src/lib/contentstack-setup.ts:516-542 | The publish phase probes and creates nothing. |
| Provisioning.NoPauseAfterLast | src/lib/contentstack-setup.ts:535-537 | The publish phase ends with a publish request: there is no pause after the last entry. |
| Provisioning.PauseFollowsSuccess | src/lib/contentstack-setup.ts:526-541 | Every pause of the publish phase comes immediately after a publish request that succeeded. |
| Provisioning.EnsureContentTypesExist | src/lib/contentstack-setup.ts:392-420 | Without both credentials the result is false and nothing is requested. A type post that throws ends the run false, with the posts as its whole trace. The result is true exactly when both credentials are set, every type post went through and the creation phase completed. |
| Provisioning.RunPicks | src/lib/contentstack-setup.ts:392-545 | Across a whole run, the probes and creates are those of the creation phase. What is published is the created list on success and nothing otherwise. |
| Provisioning.RunCreatesOnlySamples | src/lib/contentstack-setup.ts:445-509 | Every create request of a run is for one of the fixed sample items. |
| Provisioning.RunCreatesNoSiteConfiguration | src/lib/contentstack-setup.ts:423-545 | No create request and no created entry has type `site_configuration`. On success, what is published is exactly the created list, in order. |
| Provisioning.RunCreatedTypes | src/lib/contentstack-setup.ts:453-505 | Every created entry carries the type of one of the run's create requests. |
| Provisioning.CreatedFromTypes | src/lib/contentstack-setup.ts:453-505 | Every entry yielded by a sequence of creates carries the content type of one of the items created. |
| Provisioning.AbsentAmongInput | src/lib/contentstack-setup.ts:446-497 | The items found absent are among the items probed. |
| Provisioning.SecondRunCreatesNothing | src/lib/contentstack-setup.ts:392-545 | When every type post succeeds or reports "already exists" and every probe finds its entry, the run succeeds, creates nothing and publishes nothing. |
| Provisioning.AllExistCreatesNothing | src/lib/contentstack-setup.ts:429-509 | If every item's probe finds it, the creation phase succeeds with no create and an empty created list. |
| Provisioning.Includes | src/lib/contentstack-setup.ts:558 | `uids.includes(x)` holds exactly when `x` occurs among the listed uids. |
| Provisioning.Every | src/lib/contentstack-setup.ts:558 | `required.every(...)` holds exactly when each required type occurs among the listed uids. |
| Provisioning.CheckContentTypesExist | src/lib/contentstack-setup.ts:548-565 | True exactly when the API key is set, the listing succeeded, and all five required uids are listed. A missing key, a failed request, and a listing that throws while being read all give false. |
| Sorting.Insert | src/lib/data.ts:23-26 | Insertion adds exactly one element: the result is the input plus `x`, as a multiset. |
| Sorting.InsertKeepsOrder | src/lib/data.ts:23-26 | Inserting into a non-increasing sequence keeps it non-increasing. |
| Sorting.SortDesc | src/lib/data.ts:23-26 | The comparator-driven sort returns a permutation of its input in non-increasing key order. |
| Sorting.InsertWithKey | src/lib/data.ts:23-26 | Insertion puts `x` ahead of the elements it ties with and leaves every other key group in its order. |
| Sorting.SortDescIsStable | src/lib/data.ts:23-26 | The elements sharing a key keep their relative order: the sort is stable. |
| Sorting.SortDescOfSorted | src/lib/data.ts:23-26 | An input already in non-increasing order comes back unchanged. |
| Sorting.SortDescIdempotent | src/lib/data.ts:23-26 | Sorting twice is sorting once. |
| StaticData.GetHomePageContent | src/lib/data.ts:16-19 | The static content is returned and never null. |
| StaticData.GetBlogPosts | src/lib/data.ts:21-27 | A permutation of the posts in non-increasing order of publication date, or of creation date when unpublished. |
| StaticData.GetWorkExperiences | src/lib/data.ts:34-40 | A permutation of the experiences in non-increasing order of start date, or of creation date when there is none. |
| StaticData.GetPortfolioProjects | src/lib/data.ts:42-47 | A permutation of the projects in non-increasing creation order. |
| StaticData.FeaturedOnly | src/lib/data.ts:51-52 | The filter keeps exactly the featured projects. |
| StaticData.FeaturedOnlyAppend | src/lib/data.ts:51-52 | Filtering a concatenation concatenates the filtered parts, so the filter keeps the original order. |
| StaticData.FeaturedOnlyCons | src/lib/data.ts:51-52 | A project in front is kept exactly when it is featured. |
| StaticData.FeaturedOnlyCounts | src/lib/data.ts:51-52 | Each featured project occurs in the result as often as in the input, and every other project does not occur. |
| StaticData.GetFeaturedProjects | src/lib/data.ts:49-56 | A permutation of the filtered list, with every multiplicity kept, in non-increasing creation order. |
| StaticData.GetBlogPost | src/lib/data.ts:29-32 | Null exactly when no post has the slug; otherwise a post with that slug. |
| StaticData.GetBlogPostFindsFirst | src/lib/data.ts:31 | The post found is the first one with the slug. |
| StaticData.QueriesAreStable | src/lib/data.ts:21-56 | Items sharing a sort key keep their stored order: posts by date, experiences by start, projects by creation date. For the featured list, the order is the filtered order. |
| StaticData.RepeatedQueriesAgree | src/lib/data.ts:21-47 | The sort mutates the shared array, and a later call re-sorts that sorted array and returns the same sequence. |
| StaticData.ShippedFeaturedProjects | src/lib/data.ts:49-56 | With the fixture projects, the featured list is the e-commerce platform followed by `task-management-app`. |
| FileUrl.DeliveryUrl | src/components/Portfolio.tsx:36-38 | The CDN URL begins with the asset prefix and has exactly the length of prefix, key, slash, uid and `/download`. |
| FileUrl.StackKey | src/components/Portfolio.tsx:36 | The configured public key, or else the non-empty default stack key. |
| FileUrl.UrlOrNull | src/components/Portfolio.tsx:46-51 | `file.url || null` is present exactly when the url is non-empty. |
| FileUrl.FileUrl | src/components/Portfolio.tsx:28-55 | A falsy field gives null, and a `blt` string gives the delivery URL for the stack key. Any other string is returned as is. A list gives its first file's url or null, an empty list gives null, and an object gives its url or null. Every result is non-empty. |
| FileUrl.AvatarUrl | src/components/Hero.tsx:18-42 | A `blt` string gives null, left for the asset lookup, and every result is non-empty. |
| FileUrl.AvatarAgreesWithFileUrl | src/components/Hero.tsx:18-42 | The hero's resolver agrees with the cards' resolver on every field except an asset UID, where the hero gives null and the cards build a URL. |
| FileUrl.ParseDeliveryUrl | src/components/Blog.tsx:20-22 | The key read back from a delivery URL contains no slash. |
| FileUrl.ParseDeliveryUrlInverse | src/components/Blog.tsx:20-22 | A delivery URL names its stack and asset unambiguously: parsing it gives back the key and uid it was built from. |
| FileUrl.UnsetKeyUsesDefaultStack | src/components/Blog.tsx:20 | With the public key unset, every asset UID resolves into the default stack `bltf30bb27542f99789`. |
| Text.TrimEmptyIffBlank | src/components/WelcomeSetup.tsx:73 | `s.trim()` is empty exactly when every character of `s` is white space. |
| Text.Trim | src/components/WelcomeSetup.tsx:73 | `trim()` never lengthens the text. A non-empty result starts and ends with a character that is not white space, and all-white-space text trims to empty. |
| Text.ParseInt | src/components/SetupGuard.tsx:19 | `parseInt` of blank text is `NaN`. Text starting with a digit from 1 to 9 parses to a non-negative number. The round-trip lemmas below give the exact value. |
| Text.ParseIntOfNatString | src/components/SetupGuard.tsx:19 | `parseInt` reads back the decimal rendering of every natural number. |
| Text.ParseIntOfNegativeString | src/components/SetupGuard.tsx:19 | `parseInt` reads back a minus sign followed by the decimal rendering of a positive number as its negation. |
| Text.ParseIntOfIntToString | src/components/SetupGuard.tsx:19 | `parseInt` reads back the decimal rendering of every integer, negative ones included. |
| SetupGuard.Decide | src/components/SetupGuard.tsx:15-34 | The guard redirects exactly when the configuration is missing and setup was not recently completed, and it then stays in the loading state. Otherwise loading ends. The flag is cleared exactly when it was recent. |
| SetupGuard.RedirectOrContent | src/components/SetupGuard.tsx:21-47 | After the first decision, the page has either redirected or shows its children, never both and never neither. |
| SetupGuard.StampedFlagIsRecent | src/components/SetupGuard.tsx:17-19 | A flag holding the decimal time stamp `t` is recent exactly when less than 30 000 ms have passed since `t`. |
| SetupGuard.GraceIsSpentOnce | src/components/SetupGuard.tsx:27-30 | The first decision uses up the grace period: a later run of the effect with the configuration still missing redirects. |
| SetupGuard.FlagKeptUnlessRecent | src/components/SetupGuard.tsx:27-30 | Storage changes only by removing a recent flag. |
| ActiveSection.HandleScroll | src/hooks/useActiveSection.ts:11-28 | Below a scroll position of 50, `home` is active. Otherwise the active section is the last section in page order that exists and whose top is at most `scrollY + 100`; when there is none, the current section is kept. The result is always one of the six ids. |
| ActiveSection.LastReached | src/hooks/useActiveSection.ts:21-27 | This is the reference selection: a reached section with no reached section after it, or none when no section is reached. |
| ActiveSection.MaximalIsLastReached | src/hooks/useActiveSection.ts:21-27 | The maximality condition determines the selection uniquely. |
| Navigation.UpdateThemeClasses | src/components/Navigation.tsx:29-41 | Exactly one of `dark` and `light` is on the root element, matching the flag, and every other class is as it was. |
| Navigation.InitialDark | src/components/Navigation.tsx:60-69 | A stored `dark` or `light` decides the initial theme; anything else follows the system. |
| Navigation.Mount | src/components/Navigation.tsx:43-81 | After mounting, the classes and the stored choice agree with the theme, and the menu is closed. |
| Navigation.ToggleTheme | src/components/Navigation.tsx:83-90 | The theme flips and the new choice is stored, keeping the state consistent. |
| Navigation.ResetToSystemTheme | src/components/Navigation.tsx:92-98 | The stored choice is removed and the theme follows the system. |
| Navigation.SystemChanged | src/components/Navigation.tsx:48-57 | A system change applies only while no preference is stored, and otherwise changes nothing. |
| Navigation.ScrollToSection | src/components/Navigation.tsx:18-27 | The menu closes and nothing else changes. |
| Navigation.ToggleMenu | src/components/Navigation.tsx:185 | The menu button flips the menu and nothing else. |
| Navigation.Logo | src/components/Navigation.tsx:126 | The logo shows the site name, or `CS`. |
| Navigation.MenuActionsKeepTheme | src/components/Navigation.tsx:185-226 | Picking a section from an open menu closes it, toggling the menu twice restores the state, and menu actions keep the theme consistent. |
| Navigation.ThemeChangesOnlyThemeClasses | src/components/Navigation.tsx:29-98 | Toggling, resetting and system changes touch no class other than the two theme classes. |
| Navigation.ToggleTwice | src/components/Navigation.tsx:83-90 | Toggling twice restores the theme and the class list, and leaves the stored choice matching the theme. |
| Navigation.ToggleShieldsFromSystem | src/components/Navigation.tsx:48-90 | After a toggle, system changes are ignored. |
| Navigation.UnknownSavedValue | src/components/Navigation.tsx:48-69 | A stored value other than `dark` or `light` makes the first render follow the system, yet later system changes are ignored. |
| Navigation.Lower | src/components/Navigation.tsx:135 | `toLowerCase` maps each ASCII capital to its lower-case letter and keeps every other character. |
| Navigation.ExactlyOneItemActive | src/components/Navigation.tsx:107-136 | For each section the scroll handler can choose, exactly one bar item is active: the external Blog item by its lower-cased label, the others by id. |
| Navigation.IsActive | src/components/Navigation.tsx:134-136 | An external item is active only for a section name as long as its label, since it compares the lower-cased label. An internal item without an id is never active. The same rule is repeated for the mobile menu at lines 200-202. |
| Hero.AvatarEffect | src/components/Hero.tsx:45-72 | The asset endpoint `/api/asset/<uid>` is requested exactly for an asset UID. Every other field is resolved directly. A failed or thrown lookup leaves no avatar, and loading always ends. |
| Hero.CharAt0 | src/components/Hero.tsx:83 | `charAt(0)` is the first character, or empty for the empty string. |
| Hero.Initial | src/components/Hero.tsx:83-98 | The placeholder is one character: the owner's initial, else the title's, else `U`. |
| Hero.AvatarView | src/components/Hero.tsx:80-101 | While loading, a pulsing initial is shown. Then a picture with alt text owner-or-`Profile` when there is a URL, else the placeholder initial. |
| Hero.Texts | src/components/Hero.tsx:108-116 | The three first-truthy chains for headline, subtitle and body, each of which is non-empty. |
| Hero.EmptyHero | src/components/Hero.tsx:83-116 | With no configuration and no content, the hero shows its defaults and the letter `U`. |
| Hero.DirectUrlShownAsIs | src/components/Hero.tsx:45-89 | A direct URL never triggers a lookup and is shown as is. |
| Site.ContactEmail | src/components/About.tsx:39-42 | The address is the owner's e-mail, else the home page's contact e-mail, else `hello@example.com`, and is never empty. |
| About.Stat | src/components/About.tsx:61 | A non-zero count shows as its decimal rendering followed by `+`. A zero count shows the default. |
| About.StatReadsBack | src/components/About.tsx:61-73 | The figure before the `+` parses back to the configured count. |
| About.Stats | src/components/About.tsx:59-79 | The four cards: years (default `3+`), projects (`50+`), technologies (`10+`) and time zone (`PST`). |
| About.Heading | src/components/About.tsx:20 | The heading is `About` followed by the owner's name, or `About Me`. |
| About.Bio | src/components/About.tsx:26-28 | The biography is the configured bio, else the home page's about text, else the default. |
| About.View | src/components/About.tsx:20-79 | The mailto target and the visible address are the same contact address. The time-zone row appears exactly when a time zone is set. The location defaults to `Remote / Global`. |
| About.DefaultStats | src/components/About.tsx:61-79 | Without a configuration, every card shows its default figure. |
| Contact.Cards | src/components/Contact.tsx:28-91 | The e-mail card always comes first, with `mailto:` plus the address it displays. The GitHub and LinkedIn cards appear exactly when their URLs are set, and link to them. GitHub comes before LinkedIn. |
| Contact.FooterEmailAgreement | src/components/Contact.tsx:40-43 | The footer's e-mail link matches the contact card exactly when the owner's e-mail is set, or the home page's address is unset or the default. |
| Footer.Shown | src/components/Footer.tsx:29 | The filter keeps exactly the links whose `show` flag is set. |
| Footer.SocialLinks | src/components/Footer.tsx:10-29 | The rendered list is the three candidates filtered by their `show` flags. The e-mail link comes first (defaulting to `hello@example.com`), followed by GitHub and LinkedIn, each exactly when configured. Every link has a non-empty target. |
| Footer.SiteName | src/components/Footer.tsx:37 | The site name, or `Personal Website`. |
| Footer.View | src/components/Footer.tsx:37-101 | The brand and the copyright line carry the same site name, and the year is rendered in decimal. The bio falls back to its default. |
| Metadata.GenerateMetadata | src/lib/metadata.ts:4-27 | The title is the site name, ` - `, then the owner, each with its default. The authors are exactly the owner. The page, Open Graph and Twitter share the title and the description. The keywords are the four fixed words, the Open Graph type is `website` and the Twitter card is `summary_large_image`. |
| Metadata.TitleEndsWithAuthor | src/lib/metadata.ts:13-16 | The single author can be read off the end of the title, after ` - `. |
| WorkHistory.FormatDate | src/components/WorkExperience.tsx:9-15 | The empty date stays empty; any other date goes to the formatter. |
| WorkHistory.EntryView | src/components/WorkExperience.tsx:39-91 | The range ends in `Present` for a current position, and in the formatted end date otherwise. The badge appears exactly for a current position, and the connector is on every entry but the last. Technologies and description appear exactly when present. |
| WorkHistory.View | src/components/WorkExperience.tsx:33-111 | Entries come in the given order, and the empty message appears exactly when there are none. |
| WorkHistory.ConnectorsBetweenEntries | src/components/WorkExperience.tsx:39 | Every entry but the last carries the connector. |
| WorkHistory.CurrentEndsInPresent | src/components/WorkExperience.tsx:50-54 | A current position's range always ends in `Present`. |
| Lists.Truncate | src/components/Portfolio.tsx:141-152 | The shown items are the first `min(limit, n)`, and the `+k more` badge appears exactly when `n > limit`. Shown plus `k` is `n`. |
| Blog.Split | src/components/Blog.tsx:51 | `split(' ')` yields at least one piece, and no piece contains a space. |
| Blog.SplitCount | src/components/Blog.tsx:51 | Splitting yields one more piece than there are spaces. |
| Blog.JoinSplit | src/components/Blog.tsx:51 | Splitting loses nothing: joining the pieces with spaces gives the text back. |
| Blog.MinutesFor | src/components/Blog.tsx:52 | `Math.ceil(words / 200)` is the least `r` with `words <= 200 r`, and at least 1. |
| Blog.ReadTime | src/components/Blog.tsx:49-54 | The read time is `ceil((spaces + 1) / 200)`, and at least one minute even for empty content. |
| Blog.ReadTimeMonotone | src/components/Blog.tsx:49-54 | More words never read faster. |
| Blog.ShortContentReadsInOneMinute | src/components/Blog.tsx:49-54 | Content of up to 200 pieces, empty content included, reads in one minute. |
| Blog.CardView | src/components/Blog.tsx:75-160 | The card uses the shared file-URL resolver and the title's initial. The date is the publication date or else the creation date. The excerpt appears when set, at most two tags with `+k more` are shown, and the link is `/blog/<slug>`. |
| Blog.View | src/components/Blog.tsx:57-187 | Cards are shown for the first `min(3, n)` posts in order. `View All Posts` appears exactly when `n > 3`, and the empty message exactly when `n = 0`. |
| Blog.TagRow | src/components/Blog.tsx:133-149 | With more than two tags, the first two are shown and the rest are counted. |
| Portfolio.Links | src/components/Portfolio.tsx:160-204 | View Project appears exactly when `project_link` is set, and Live Demo exactly when it is not and `live_url` is. The code link is the repository link, or `github_url` when that is unset. Every link has a non-empty target. The links come in the rendered order: View Project, the repository link, Live Demo, then the `github_url` fallback. |
| Portfolio.LinksCount | src/components/Portfolio.tsx:160-204 | The number of links of each kind, condition by condition. |
| Portfolio.AtMostOneOfEach | src/components/Portfolio.tsx:160-204 | A card has at most one code link and at most one primary link: the fallbacks never duplicate. |
| Portfolio.CardView | src/components/Portfolio.tsx:73-155 | The card uses the shared file-URL resolver and the title's initial. The star appears exactly for a featured project. The project type and the description appear exactly when set, showing their values. The badges are the first three technologies with `+k more`. |
| Portfolio.BadgeRow | src/components/Portfolio.tsx:139-155 | At most three badges, a prefix of the list, plus `+(n-3) more` exactly when `n > 3`. |
| Portfolio.View | src/components/Portfolio.tsx:57-236 | One card per project in order. The empty message appears exactly when there are no projects, and the GitHub call to action exactly when a GitHub URL is configured. |
| WelcomeSetup.PhotoChanged | src/components/WelcomeSetup.tsx:37-63 | No file changes nothing. A non-image, or an image over 5 MiB, sets its error and keeps the selection. Otherwise the file is selected and the error cleared. |
| WelcomeSetup.SizeBoundary | src/components/WelcomeSetup.tsx:47-50 | Exactly 5 MiB is accepted; one byte more is refused and the selection is kept. |
| WelcomeSetup.PreviewLoaded | src/components/WelcomeSetup.tsx:56-58 | The reader's data URL becomes the preview, and nothing else changes. |
| WelcomeSetup.RemovePhoto | src/components/WelcomeSetup.tsx:65-68 | The photo and its preview are cleared, and nothing else changes. |
| WelcomeSetup.HandleChange | src/components/WelcomeSetup.tsx:96-102 | The named field takes the value; every other field and all other state is unchanged. |
| WelcomeSetup.HandleSubmit | src/components/WelcomeSetup.tsx:70-94 | The callback gets the form data and photo exactly when both required fields are non-blank after trimming; otherwise the missing-fields error is set. On success, `isSuccess` is set and submitting stays on. On failure, the error is set, submitting ends and the status is cleared. |
| WelcomeSetup.SubmitDisabled | src/components/WelcomeSetup.tsx:302 | The button tests the raw fields. Whenever the trimmed check of `HandleSubmit` would accept the form and no submission is running, the button is enabled. |
| WelcomeSetup.BlankNameEnabledButRefused | src/components/WelcomeSetup.tsx:70-94 | A name of only white space enables the button, yet the submission is refused and the callback is not called. |
| WelcomeSetup.SentFormsHadFields | src/components/WelcomeSetup.tsx:70-94 | Every submission let through has both raw fields non-empty: the trimmed check is at least as strict as the button's. |
| SetupRoute.OrEmpty | src/app/api/setup/route.ts:59-62 | `v \|\| ''` is the value when truthy and the empty string otherwise. |
| SetupRoute.Payload | src/app/api/setup/route.ts:55-65 | The update has exactly the seven entry fields. The title is fixed, `setup_completed` is true, the names are copied, and the optional fields default to `''`. |
| SetupRoute.Post | src/app/api/setup/route.ts:4-81 | The checks run in order: an unparseable or null body gives 500, missing names give 400, and missing credentials give 500, none of them after any CMS call. The response is 404 exactly when validation passed and the read returned non-null data whose `entries` is falsy or the empty array. The response is the generic 500 exactly when the body is unparseable or null, or when validation passed and then one of these happened: the read threw, the data is null, the first entry is missing or null, or the PUT threw. The PUT names the first entry's uid with the payload. Success is reported exactly when the PUT went through. |
| SetupRoute.UpdatesFirstEntry | src/app/api/setup/route.ts:44-71 | For a non-empty list of entries, the one read is followed by a PUT to the first entry's uid. |
| SetupRoute.NoEntryIsNotFound | src/app/api/setup/route.ts:44-50 | An empty or missing entry list gives 404 after the one read, and nothing is written. |

## Left out

- Network, SDK and timers: axios, `fetch`, the Contentstack SDK and `setTimeout` are not executed. Their outcomes are parameters, and pauses are recorded as requests in the trace.
- Browser state: `localStorage`, `Date.now`, `window.matchMedia`, DOM geometry and `FileReader` are inputs of the transitions that read them.
- Logging: console output is not modelled.
- Dates: `new Date(...)`, `toLocaleDateString` and ISO-date parsing are left out. In the data queries, dates are integers that order like the instants they stand for. Invalid dates, which would give `NaN` comparisons, are not modelled. The work-history formatter is an input function.
- Floating point: JavaScript numbers are integers here. `parseInt`'s precision loss on very long digit strings is not modelled.
- Canvas effects, theme colours and scroll animation: the sparkle and mandala canvases, the theme provider's colour conversion, `useSectionScroll` and `useScrollOpacity` depend on floating-point maths and animation frames.
- Scripts, routes and pages: the command-line init script, the debug, status and force-refresh routes, the asset route, the page and layout files, and `AdminLink` only wire other parts together.
- Schemas: the content-type schemas and the sample entries' field values are opaque. An item is its content type and the slug its probe filters on.
- Request contents: the URLs, headers and bodies of the provisioning requests are abstracted to the request kind and the item or entry. The environment name used when publishing is not modelled.
- Provisioning.CheckContentTypesExist: `content_types.map` over a present non-array value is modelled as throwing. That holds for every JSON value except an object with its own `map` method, which a JSON response cannot carry.
- SetupRoute.Post: the PUT's target is modelled as the first entry's `uid` value, not as the URL string it is interpolated into.
- SetupRoute.Post, Contentstack.ManagementFirst, Contentstack.NormaliseEntry and Provisioning.Exists: `entries.length` is read only for arrays and strings. An object's own `length` property is not consulted.
- Contentstack.GetSiteConfiguration: the typing of the returned entry as a `SiteConfiguration` record is not modelled. The view modules take the already-typed record.
- Data and view records: the Json-to-record step (reading a CMS entry into the `SiteConfiguration`, `Post` or `Project` records) is left out.
- Navigation.Lower: only ASCII letters are lower-cased, which covers the bar's fixed labels.
- Navigation.UpdateThemeClasses: the root element's class list is a set, so the order of its classes is not modelled. Only membership is read or changed.
- Hero.CharAt0: strings are sequences of Unicode scalar values, not UTF-16 code units. For a name starting with a character outside the Basic Multilingual Plane, JavaScript's `charAt(0)` and `s[0]` give a lone surrogate where the model gives the whole character. The same holds for Hero.Initial, Blog.CardView, Portfolio.CardView and Json.Index0 on strings.
- Hero.Initial: inherits the code-unit gap of Hero.CharAt0 for names starting outside the Basic Multilingual Plane.
- StaticData.GetBlogPosts: `Array.prototype.sort` mutates the shared fixture array in place. The model returns the sorted sequence; `StaticData.RepeatedQueriesAgree` shows that a later call on the mutated array gives the same result.
- The metadata builder computes a subtitle fallback (src/lib/metadata.ts:9) that it never returns. It has no observable effect and is not modelled.
- Blog.ReadTime: JavaScript's default parameter replaces only `undefined`. Content explicitly `null` would throw; the model reads absent content as `""`.
- Hero.AvatarEffect: the state before the effect finishes (loading on, then the fetch in flight) is not modelled. Only the settled state and the request it made are.
- WelcomeSetup.HandleSubmit: the intermediate state while the callback is pending (submitting, with the "Creating your site configuration..." status) is not returned. Only the state after the callback settles is.

=== FILE: about.dfy ===
/** The about section: heading, biography, contact lines and the four
    highlight cards. */
module About {
  import opened Wrappers
  import opened Text
  import opened Site

  /** A highlight card's figure: `n+` for a non-zero count, else the
      default (a count of 0 counts as absent). */
  function Stat(n: int, default: string): (r: string)
    ensures n != 0 ==> |r| > 1 && r[|r| - 1] == '+' && r[..|r| - 1] == IntToString(n)
    ensures n == 0 ==> r == default
  {
    if n != 0 then
      assert (IntToString(n) + "+")[..|IntToString(n)|] == IntToString(n);
      IntToString(n) + "+"
    else default
  }

  /** The figure before the `+` reads back as the configured count. */
  lemma StatReadsBack(n: int, default: string)
    requires n != 0
    ensures var r := Stat(n, default); ParseInt(r[..|r| - 1]) == Some(n)
  {
    ParseIntOfIntToString(n);
  }

  /** The four highlight cards: years, projects, technologies, time zone. */
  function Stats(cfg: SiteConfiguration): (r: seq<string>)
    ensures |r| == 4
    ensures r[0] == Stat(cfg.yearsExperience, "3+")
    ensures r[1] == Stat(cfg.projectsCompleted, "50+")
    ensures r[2] == Stat(cfg.technologiesCount, "10+")
    ensures cfg.timeZone != "" ==> r[3] == cfg.timeZone
    ensures cfg.timeZone == "" ==> r[3] == "PST"
  {
    [Stat(cfg.yearsExperience, "3+"), Stat(cfg.projectsCompleted, "50+"),
     Stat(cfg.technologiesCount, "10+"), Or(cfg.timeZone, "PST")]
  }

  /** The heading names the owner, or reads `About Me`. */
  function Heading(c: Option<SiteConfiguration>): (r: string)
    ensures Config(c).ownerName != "" ==> r == "About " + Config(c).ownerName
    ensures Config(c).ownerName == "" ==> r == "About Me"
  {
    "About " + Or(Config(c).ownerName, "Me")
  }

  const DefaultBio := "I'm a passionate creator building amazing things. Welcome to my digital space where I share my work, thoughts, and journey."

  /** The biography: the configured one, else the home page's about text,
      else the default. */
  function Bio(c: Option<SiteConfiguration>, content: Option<HomePageContent>): (r: string)
    ensures Config(c).bio != "" ==> r == Config(c).bio
    ensures Config(c).bio == "" && Content(content).aboutSection != "" ==> r == Content(content).aboutSection
    ensures Config(c).bio == "" && Content(content).aboutSection == "" ==> r == DefaultBio
  {
    Or(Or(Config(c).bio, Content(content).aboutSection), DefaultBio)
  }

  datatype AboutView = AboutView(
    heading: string,
    bio: string,
    emailHref: string,
    emailText: string,
    location: string,
    timeZoneRow: Option<string>,
    stats: seq<string>)

  function View(c: Option<SiteConfiguration>, content: Option<HomePageContent>): (r: AboutView)
    ensures r.heading == Heading(c) && r.bio == Bio(c, content) && r.stats == Stats(Config(c))
    ensures r.emailHref == "mailto:" + r.emailText
    ensures r.emailText == ContactEmail(c, content)
    ensures r.timeZoneRow.Some? <==> Config(c).timeZone != ""
    ensures r.timeZoneRow.Some? ==> r.timeZoneRow.value == Config(c).timeZone
    ensures Config(c).workLocation != "" ==> r.location == Config(c).workLocation
    ensures Config(c).workLocation == "" ==> r.location == "Remote / Global"
  {
    var cfg := Config(c);
    var email := ContactEmail(c, content);
    AboutView(
      Heading(c), Bio(c, content), "mailto:" + email, email,
      Or(cfg.workLocation, "Remote / Global"),
      if cfg.timeZone != "" then Some(cfg.timeZone) else None,
      Stats(cfg))
  }

  /** Without a configuration every card shows its default figure. */
  lemma DefaultStats()
    ensures Stats(Config(None)) == ["3+", "50+", "10+", "PST"]
  {
  }
}

=== FILE: active_section.dfy ===
/** The scroll handler that picks the navigation's active section. The page
    geometry is an input: for each section id, the `offsetTop` of its element,
    or `None` when the page has no element with that id. */
module ActiveSection {
  import opened Wrappers

  /** The section ids, in page order. */
  const Sections: seq<string> := ["home", "about", "work", "portfolio", "blog", "contact"]

  /** The active section before the first scroll event. */
  const InitialSection := "home"

  /** The header height the scroll position is shifted by. */
  const HeaderOffset := 100

  /** Above this scroll position the page counts as being at the very top. */
  const TopThreshold := 50

  /** Section `i` exists and, at scroll position `scrollY`, its top is at
      or above the line just below the header. */
  predicate Reached(offsets: seq<Option<int>>, i: int, scrollY: int)
    requires |offsets| == |Sections|
  {
    0 <= i < |offsets| && offsets[i].Some? && offsets[i].value <= scrollY + HeaderOffset
  }

  /** `handleScroll`: at the very top the home section is active; otherwise
      the last section, in page order, whose element exists and has been
      scrolled to; when none has, the active section stays as it was. */
  method HandleScroll(scrollY: int, offsets: seq<Option<int>>, current: string) returns (active: string)
    requires |offsets| == |Sections|
    ensures scrollY < TopThreshold ==> active == "home"
    ensures scrollY >= TopThreshold ==>
      (exists i :: Reached(offsets, i, scrollY) && active == Sections[i]
                   && forall j :: i < j < |Sections| ==> !Reached(offsets, j, scrollY))
      || ((forall i :: 0 <= i < |Sections| ==> !Reached(offsets, i, scrollY)) && active == current)
    ensures scrollY >= TopThreshold ==>
      var r := LastReached(offsets, scrollY, |Sections|);
      active == if r.Some? then Sections[r.value] else current
    ensures current in Sections ==> active in Sections
  {
    if scrollY < TopThreshold {
      return "home";
    }
    var position := scrollY + HeaderOffset;
    active := current;
    var i := |Sections| - 1;
    while i >= 0
      invariant -1 <= i < |Sections|
      invariant forall j :: i < j < |Sections| ==> !Reached(offsets, j, scrollY)
      invariant active == current
    {
      if offsets[i].Some? && offsets[i].value <= position {
        active := Sections[i];
        MaximalIsLastReached(offsets, scrollY, i);
        return;
      }
      i := i - 1;
    }
  }

  /** The selection as a function of the geometry: the index of the last
      reached section, if any. */
  function LastReached(offsets: seq<Option<int>>, scrollY: int, n: nat): (r: Option<nat>)
    requires |offsets| == |Sections| && n <= |Sections|
    ensures r.Some? ==> r.value < n && Reached(offsets, r.value, scrollY)
                        && forall j :: r.value < j < n ==> !Reached(offsets, j, scrollY)
    ensures r.None? ==> forall j :: 0 <= j < n ==> !Reached(offsets, j, scrollY)
  {
    if n == 0 then None
    else if Reached(offsets, n - 1, scrollY) then Some(n - 1)
    else LastReached(offsets, scrollY, n - 1)
  }

  /** The reference selection is determined by the maximality condition
      the handler's result satisfies: a reached section with no reached
      section after it is the one `LastReached` names. */
  lemma MaximalIsLastReached(offsets: seq<Option<int>>, scrollY: int, i: nat)
    requires |offsets| == |Sections|
    requires i < |Sections| && Reached(offsets, i, scrollY)
    requires forall j :: i < j < |Sections| ==> !Reached(offsets, j, scrollY)
    ensures LastReached(offsets, scrollY, |Sections|) == Some(i)
  {
  }
}

=== FILE: blog.dfy ===
/** The blog section of the home page: the three latest posts as cards,
    with read time, tags and image, and the "View All Posts" and empty
    states. Date formatting is left to the locale and is not modelled. */
module Blog {
  import opened Wrappers
  import opened Lists
  import FileUrl

  datatype Post = Post(
    uid: string,
    title: string,
    slug: string,
    excerpt: string,
    content: string,
    publishedDate: string,
    createdAt: string,
    tags: seq<string>,
    featuredImage: FileUrl.FileField)

  const WordsPerMinute := 200

  /** The number of occurrences of `c` in `s`. */
  function Count(s: string, c: char): nat
  {
    if s == [] then 0 else (if s[0] == c then 1 else 0) + Count(s[1..], c)
  }

  /** `s.split(' ')`: the pieces between spaces, empty pieces included. */
  function Split(s: string): (r: seq<string>)
    ensures |r| >= 1
    ensures forall i :: 0 <= i < |r| ==> ' ' !in r[i]
  {
    if s == [] then [""]
    else
      var rest := Split(s[1..]);
      if s[0] == ' ' then [""] + rest
      else [[s[0]] + rest[0]] + rest[1..]
  }

  /** Joining the pieces with single spaces. */
  function Join(pieces: seq<string>): string
    requires |pieces| >= 1
  {
    if |pieces| == 1 then pieces[0] else pieces[0] + " " + Join(pieces[1..])
  }

  /** Splitting yields one more piece than there are spaces. */
  lemma {:induction false} SplitCount(s: string)
    ensures |Split(s)| == Count(s, ' ') + 1
  {
    if s != [] {
      SplitCount(s[1..]);
    }
  }

  /** Splitting loses nothing: joining the pieces with spaces gives the
      text back. */
  lemma {:induction false} JoinSplit(s: string)
    ensures Join(Split(s)) == s
  {
    if s != [] {
      JoinSplit(s[1..]);
      var rest := Split(s[1..]);
      if s[0] == ' ' {
        assert Split(s) == [""] + rest;
        assert Split(s)[1..] == rest;
        assert Join(Split(s)) == "" + " " + Join(rest);
        assert s == [' '] + s[1..];
      } else {
        var r := Split(s);
        assert r == [[s[0]] + rest[0]] + rest[1..];
        if |rest| == 1 {
          assert Join(r) == [s[0]] + rest[0];
        } else {
          assert r[1..] == rest[1..];
          assert Join(rest) == rest[0] + " " + Join(rest[1..]);
          assert Join(r) == [s[0]] + rest[0] + " " + Join(rest[1..]);
        }
        assert s == [s[0]] + s[1..];
      }
    }
  }

  /** `Math.ceil(words / 200)` for a positive word count. */
  function MinutesFor(words: nat): (r: nat)
    requires words >= 1
    ensures r >= 1
    ensures (r - 1) * WordsPerMinute < words <= r * WordsPerMinute
  {
    (words + WordsPerMinute - 1) / WordsPerMinute
  }

  /** `calculateReadTime`: minutes for the number of space-separated pieces
      of the content; absent content is the empty string. */
  function ReadTime(content: string): (r: nat)
    ensures r >= 1
    ensures r == MinutesFor(Count(content, ' ') + 1)
  {
    SplitCount(content);
    MinutesFor(|Split(content)|)
  }

  /** More words never read faster. */
  lemma ReadTimeMonotone(a: nat, b: nat)
    requires 1 <= a <= b
    ensures MinutesFor(a) <= MinutesFor(b)
  {
  }

  /** Empty content, and any content of up to 200 pieces, reads in one
      minute. */
  lemma ShortContentReadsInOneMinute(content: string)
    requires Count(content, ' ') < WordsPerMinute
    ensures ReadTime(content) == 1
    ensures ReadTime("") == 1
  {
  }

  datatype Card = Card(
    imageUrl: Option<string>,
    placeholder: string,
    date: string,
    minutes: nat,
    excerpt: Option<string>,
    tags: Option<Truncated<string>>,
    href: string)

  function CardView(p: Post, envKey: string): (r: Card)
    ensures r.imageUrl == FileUrl.FileUrl(p.featuredImage, envKey)
    ensures r.placeholder <= p.title && |r.placeholder| == (if p.title == "" then 0 else 1)
    ensures r.date == (if p.publishedDate != "" then p.publishedDate else p.createdAt)
    ensures r.minutes == ReadTime(p.content)
    ensures r.excerpt.Some? <==> p.excerpt != ""
    ensures r.tags.Some? <==> |p.tags| > 0
    ensures r.tags.Some? ==> r.tags.value == Truncate(p.tags, 2)
    ensures r.href == "/blog/" + p.slug
  {
    Card(
      FileUrl.FileUrl(p.featuredImage, envKey),
      if p.title == "" then "" else p.title[..1],
      if p.publishedDate != "" then p.publishedDate else p.createdAt,
      ReadTime(p.content),
      if p.excerpt != "" then Some(p.excerpt) else None,
      if |p.tags| > 0 then Some(Truncate(p.tags, 2)) else None,
      "/blog/" + p.slug)
  }

  datatype Section = Section(cards: seq<Card>, emptyMessage: bool, viewAll: bool)

  /** The section: cards for the first three posts, in order. */
  function View(posts: seq<Post>, envKey: string): (r: Section)
    ensures |r.cards| == Min(3, |posts|)
    ensures forall i :: 0 <= i < |r.cards| ==> r.cards[i] == CardView(posts[i], envKey)
    ensures r.emptyMessage <==> |posts| == 0
    ensures r.viewAll <==> |posts| > 3
    ensures r.viewAll ==> !r.emptyMessage
  {
    var featured := Truncate(posts, 3).shown;
    Section(seq(|featured|, i requires 0 <= i < |featured| => CardView(featured[i], envKey)),
            |posts| == 0, |posts| > 3)
  }

  /** A card's tag row shows at most two tags and counts the rest. */
  lemma TagRow(p: Post, envKey: string)
    requires |p.tags| > 2
    ensures var t := CardView(p, envKey).tags.value;
      t.shown == p.tags[..2] && t.more == Some(|p.tags| - 2)
  {
  }
}

=== FILE: contact.dfy ===
/** The contact section: an e-mail card that is always shown, and GitHub and
    LinkedIn cards that appear only when configured. */
module Contact {
  import opened Wrappers
  import opened Site
  import Footer

  datatype Card = EmailCard(href: string, text: string) | GitHubCard(href: string) | LinkedInCard(href: string)

  function Cards(c: Option<SiteConfiguration>, content: Option<HomePageContent>): (r: seq<Card>)
    ensures |r| >= 1 && r[0] == EmailCard("mailto:" + ContactEmail(c, content), ContactEmail(c, content))
    ensures GitHubCard(Config(c).githubUrl) in r <==> Config(c).githubUrl != ""
    ensures LinkedInCard(Config(c).linkedinUrl) in r <==> Config(c).linkedinUrl != ""
    ensures forall card :: card in r && card.GitHubCard? ==> card.href == Config(c).githubUrl
    ensures forall card :: card in r && card.LinkedInCard? ==> card.href == Config(c).linkedinUrl
    ensures forall i :: 0 < i < |r| ==> !r[i].EmailCard?
    ensures forall i, j :: 0 <= i < |r| && 0 <= j < |r| && r[i].GitHubCard? && r[j].LinkedInCard? ==> i < j
  {
    var cfg := Config(c);
    var email := ContactEmail(c, content);
    [EmailCard("mailto:" + email, email)]
    + (if cfg.githubUrl != "" then [GitHubCard(cfg.githubUrl)] else [])
    + (if cfg.linkedinUrl != "" then [LinkedInCard(cfg.linkedinUrl)] else [])
  }

  /** The footer's e-mail link skips the home page's contact address: the
      footer and the contact card point at the same address exactly when
      the owner's e-mail is set or the home page's address is unset or the
      default. */
  lemma FooterEmailAgreement(c: Option<SiteConfiguration>, content: Option<HomePageContent>)
    ensures Footer.SocialLinks(c)[0].href == Cards(c, content)[0].href
        <==> Config(c).ownerEmail != "" || Content(content).contactEmail == ""
             || Content(content).contactEmail == "hello@example.com"
  {
    var a := Footer.SocialLinks(c)[0].href;
    var b := Cards(c, content)[0].href;
    var x := Or(Config(c).ownerEmail, "hello@example.com");
    var y := ContactEmail(c, content);
    assert a == "mailto:" + x;
    assert b == "mailto:" + y;
    if a == b {
      assert a[7..] == x && b[7..] == y;
    }
  }
}

=== FILE: contentstack.dfy ===
/** The delivery-side reads of `src/lib/contentstack.ts`: the run-once setup
    latch, the normalisation of the SDK's three result shapes with the
    management-API fallback for the site configuration, and the result
    handling of the list and single-entry getters.

    The SDK call, the `fetch` of the management API and the content-type
    probe are not modelled; their outcomes are parameters. */
module Contentstack {
  import opened Wrappers
  import opened Json

  /** What a call into the SDK produced: a value, or a thrown error. */
  datatype Fetch = Threw | Returned(value: Json)

  /** The management-API fallback: the request threw, or a response arrived
      with its `ok` flag and its body (`None` when the body did not parse). */
  datatype MgmtReply = MgmtThrew | MgmtResponse(ok: bool, body: Option<Json>)

  // ---------------------------------------------------------------------
  // The run-once setup latch (`setupAttempted` / `ensureSetup`)
  // ---------------------------------------------------------------------

  /** The per-process state: whether `ensureSetup` has run. */
  datatype Process = Process(setupAttempted: bool)

  const Start := Process(false)

  /** One call of `ensureSetup`: the state after it, whether it asked the
      CMS if the content types exist, and whether it then provisioned. */
  datatype SetupStep = SetupStep(after: Process, probed: bool, provisioned: bool)

  /** `ensureSetup`, where `typesExist` is what the content-type probe would
      answer. The latch is set before the probe, so a failing or slow probe
      cannot cause a second attempt. */
  function EnsureSetup(p: Process, typesExist: bool): (r: SetupStep)
    ensures r.after.setupAttempted
    ensures p.setupAttempted ==> !r.probed && !r.provisioned && r.after == p
    ensures !p.setupAttempted ==> r.probed
    ensures r.provisioned <==> r.probed && !typesExist
  {
    if p.setupAttempted then SetupStep(p, false, false)
    else SetupStep(Process(true), true, !typesExist)
  }

  /** How many probes and provisionings a sequence of `ensureSetup` calls
      performs, the i-th call seeing probe answer `answers[i]`. */
  datatype Tally = Tally(probes: nat, provisions: nat)

  function SetupCalls(p: Process, answers: seq<bool>): Tally
    decreases |answers|
  {
    if answers == [] then Tally(0, 0)
    else
      var s := EnsureSetup(p, answers[0]);
      var rest := SetupCalls(s.after, answers[1..]);
      Tally((if s.probed then 1 else 0) + rest.probes,
            (if s.provisioned then 1 else 0) + rest.provisions)
  }

  /** However many reads run in one process and whatever the probe answers,
      the probe and the provisioning each run at most once, and never again
      once the latch is set. */
  lemma {:induction false} SetupRunsAtMostOnce(p: Process, answers: seq<bool>)
    ensures SetupCalls(p, answers).probes <= (if p.setupAttempted then 0 else 1)
    ensures SetupCalls(p, answers).provisions <= SetupCalls(p, answers).probes
    decreases |answers|
  {
    if answers != [] {
      var s := EnsureSetup(p, answers[0]);
      SetupRunsAtMostOnce(s.after, answers[1..]);
      SetupCallsFromLatched(s.after, answers[1..]);
    }
  }

  /** Once the latch is set, no call probes or provisions. */
  lemma {:induction false} SetupCallsFromLatched(p: Process, answers: seq<bool>)
    requires p.setupAttempted
    ensures SetupCalls(p, answers) == Tally(0, 0)
  {
    if answers != [] {
      SetupCallsFromLatched(p, answers[1..]);
    }
  }

  // ---------------------------------------------------------------------
  // getSiteConfiguration
  // ---------------------------------------------------------------------

  /** `[entry, ...]`, with the first element not itself an array. */
  predicate FlatShape(result: Json, e: Json)
  {
    result.JArr? && |result.items| > 0 && !result.items[0].JArr? && e == result.items[0]
  }

  /** `[[entry, ...], ...]`. */
  predicate NestedShape(result: Json, e: Json)
  {
    && result.JArr? && |result.items| > 0
    && result.items[0].JArr? && |result.items[0].items| > 0
    && e == result.items[0].items[0]
  }

  /** `{entries: [entry, ...]}`. */
  predicate EntriesShape(result: Json, e: Json)
  {
    && result.JObj? && "entries" in result.fields
    && result.fields["entries"].JArr? && |result.fields["entries"].items| > 0
    && e == result.fields["entries"].items[0]
  }

  /** The entry the SDK's `find()` result holds, if any. Only a populated
      object is ever accepted, and only from one of the three shapes. */
  function NormaliseEntry(result: Json): (r: Option<Json>)
    ensures r.Some? ==> IsPopulatedObject(r.value) && r.value != JObj(map[])
    ensures r.Some? ==>
      FlatShape(result, r.value) || NestedShape(result, r.value) || EntriesShape(result, r.value)
    ensures result.JArr? && |result.items| > 0 && result.items[0].JArr? ==>
      (r.Some? <==> |result.items[0].items| > 0 && IsPopulatedObject(result.items[0].items[0]))
  {
    if result.JArr? && |result.items| > 0 then
      var first := result.items[0];
      if first.JArr? then
        if |first.items| > 0 && IsPopulatedObject(first.items[0]) then Some(first.items[0]) else None
      else if IsPopulatedObject(first) then Some(first)
      else None
    else if Truthy(result) && TruthyOpt(Member(result, "entries"))
         && LengthPositive(Member(result, "entries").value) then
      var e0 := Index0(Member(result, "entries").value);
      if e0.Some? && IsPopulatedObject(e0.value) then e0 else None
    else None
  }

  /** Whichever of the three shapes holds a populated object, that object is
      the result; the three shapes are interchangeable. */
  lemma ShapesAgree(e: Json, rest: seq<Json>, others: seq<Json>, fields: map<string, Json>)
    requires e.JObj? && |e.fields| > 0
    ensures NormaliseEntry(JArr([e] + rest)) == Some(e)
    ensures NormaliseEntry(JArr([JArr([e] + others)] + rest)) == Some(e)
    ensures NormaliseEntry(JObj(fields["entries" := JArr([e] + rest)])) == Some(e)
  {
    assert Member(JObj(fields["entries" := JArr([e] + rest)]), "entries") == Some(JArr([e] + rest));
  }

  /** `[[]]`: an empty inner list yields nothing, even when later elements of
      the outer list hold entries. */
  lemma EmptyInnerListYieldsNothing(rest: seq<Json>)
    ensures NormaliseEntry(JArr([JArr([])] + rest)) == None
  {
  }

  /** The management API's `data?.entries && data.entries.length > 0 ? data.entries[0]`. */
  function ManagementFirst(data: Json): (r: Option<Json>)
    ensures r.Some? <==> TruthyOpt(OptMember(Some(data), "entries"))
                         && LengthPositive(OptMember(Some(data), "entries").value)
    ensures r.Some? ==> Index0(OptMember(Some(data), "entries").value) == r
  {
    var entries := OptMember(Some(data), "entries");
    if TruthyOpt(entries) && LengthPositive(entries.value) then Index0(entries.value) else None
  }

  /** What the management fallback contributes: the first entry of a
      successful, parseable response. */
  function FromManagement(m: MgmtReply): (r: Option<Json>)
    ensures r.Some? ==> m.MgmtResponse? && m.ok && m.body.Some?
    ensures r.Some? ==> OptMember(m.body, "entries").Some? && Index0(OptMember(m.body, "entries").value) == r
  {
    if m.MgmtResponse? && m.ok && m.body.Some? then ManagementFirst(m.body.value) else None
  }

  /** The SDK query's normalised entry; a thrown SDK call yields nothing. */
  function FromDelivery(sdk: Fetch): (r: Option<Json>)
    ensures sdk.Threw? ==> r.None?
    ensures r.Some? ==> IsPopulatedObject(r.value) && r.value != JObj(map[])
  {
    if sdk.Returned? then NormaliseEntry(sdk.value) else None
  }

  datatype ConfigRead = ConfigRead(after: Process, config: Json)

  /** `getSiteConfiguration`. `typesExist` is the first probe's answer,
      `setupProbe` what the probe inside `ensureSetup` would answer. Failures
      of either request yield `null`; nothing propagates. */
  function GetSiteConfiguration(p: Process, typesExist: bool, setupProbe: bool,
                                sdk: Fetch, mgmt: MgmtReply): (r: ConfigRead)
    ensures !typesExist ==> r.config == JNull && r.after == EnsureSetup(p, setupProbe).after
    ensures typesExist ==> r.after == p
    ensures typesExist && FromDelivery(sdk).Some? ==> r.config == FromDelivery(sdk).value
    ensures typesExist && FromDelivery(sdk).None? ==>
      r.config == FromManagement(mgmt).GetOr(JNull)
    ensures FromDelivery(sdk).None? && FromManagement(mgmt).None? ==> r.config == JNull
  {
    if !typesExist then
      ConfigRead(EnsureSetup(p, setupProbe).after, JNull)
    else
      var delivered := FromDelivery(sdk);
      var config :=
        if delivered.Some? then delivered.value
        else FromManagement(mgmt).GetOr(JNull);
      ConfigRead(p, config)
  }

  // ---------------------------------------------------------------------
  // The list and single-entry getters
  // ---------------------------------------------------------------------

  /** Reading `result[0]` throws when the SDK threw or returned `null`. */
  predicate Throws(r: Fetch)
  {
    r.Threw? || r.value.JNull?
  }

  /** `result[0]`, when reading it does not throw. */
  function Result0(r: Fetch): Option<Json>
    requires !Throws(r)
  {
    Index0(r.value)
  }

  /** `result[0]?.[0]`, when reading `result[0]` does not throw. */
  function Result00(r: Fetch): Option<Json>
    requires !Throws(r)
  {
    var x := Result0(r);
    if x.None? || x.value.JNull? then None else Index0(x.value)
  }

  /** `try { return result[0] || [] } catch { return [] }`, the result
      handling shared by `getBlogPosts`, `getWorkExperiences`,
      `getPortfolioProjects` and `getFeaturedProjects`. */
  function ListOrEmpty(r: Fetch): (list: Json)
    ensures Truthy(list)
    ensures Throws(r) ==> list == JArr([])
    ensures !Throws(r) && TruthyOpt(Result0(r)) ==> list == Result0(r).value
    ensures !Throws(r) && !TruthyOpt(Result0(r)) ==> list == JArr([])
  {
    if Throws(r) then JArr([])
    else if TruthyOpt(Result0(r)) then Result0(r).value
    else JArr([])
  }

  /** `getBlogPost`: `result[0]?.[0] || null`, and `null` on any error. */
  function SingleOrNull(r: Fetch): (entry: Json)
    ensures entry == JNull || Truthy(entry)
    ensures Truthy(entry) ==> !Throws(r) && Result00(r) == Some(entry)
    ensures !Throws(r) && TruthyOpt(Result00(r)) ==> entry == Result00(r).value
  {
    if Throws(r) then JNull
    else if TruthyOpt(Result00(r)) then Result00(r).value
    else JNull
  }

  /** `getHomePageContent`: `result[0]?.[0] || result[0] || null`. */
  function HomeOrNull(r: Fetch): (entry: Json)
    ensures entry == JNull || Truthy(entry)
    ensures Truthy(entry) ==> !Throws(r) && (Result00(r) == Some(entry) || Result0(r) == Some(entry))
    ensures !Throws(r) && TruthyOpt(Result00(r)) ==> entry == Result00(r).value
    ensures !Throws(r) && !TruthyOpt(Result00(r)) && TruthyOpt(Result0(r)) ==> entry == Result0(r).value
    ensures Throws(r) ==> entry == JNull
  {
    if Throws(r) then JNull
    else if TruthyOpt(Result00(r)) then Result00(r).value
    else if TruthyOpt(Result0(r)) then Result0(r).value
    else JNull
  }

  datatype Read = Read(after: Process, value: Json)

  /** A list getter: `ensureSetup` runs first, then the query's result is
      reduced by `ListOrEmpty`. */
  function GetList(p: Process, typesExist: bool, r: Fetch): (res: Read)
    ensures res.after == EnsureSetup(p, typesExist).after
    ensures res.after.setupAttempted
    ensures Truthy(res.value)
    ensures Throws(r) ==> res.value == JArr([])
    ensures !Throws(r) && TruthyOpt(Result0(r)) ==> res.value == Result0(r).value
    ensures !Throws(r) && !TruthyOpt(Result0(r)) ==> res.value == JArr([])
  {
    Read(EnsureSetup(p, typesExist).after, ListOrEmpty(r))
  }
}

=== FILE: data.dfy ===
/** The static data service: the home page, blog posts, work experiences and
    portfolio projects held in memory, sorted newest first. Dates are
    modelled as integers that order like the instants they stand for; an
    absent optional date is `None`. */
module StaticData {
  import opened Wrappers
  import opened Sorting
  import opened Site

  datatype BlogPost = BlogPost(
    uid: string,
    title: string,
    slug: string,
    publishedDate: Option<int>,
    createdAt: int)

  datatype WorkExperience = WorkExperience(
    uid: string,
    company: string,
    startDate: Option<int>,
    createdAt: int)

  datatype PortfolioProject = PortfolioProject(
    uid: string,
    slug: string,
    featured: bool,
    createdAt: int)

  /** The home page content the site ships with. */
  const HomePage := HomePageContent(
    "Welcome to My Bio Site",
    "Full-Stack Developer & Digital Creator",
    "Building amazing web experiences with modern technologies",
    "I'm a passionate full-stack developer with expertise in React, Node.js, and cloud technologies. I love creating innovative solutions that make a real impact.",
    ["JavaScript", "React", "Node.js", "TypeScript", "Python", "AWS", "Next.js", "Tailwind CSS"],
    "hello@example.com")

  /** The portfolio projects the site ships with; dates as YYYYMMDD. */
  const Projects := [
    PortfolioProject("ecommerce-platform", "ecommerce-platform", true, 20231201),
    PortfolioProject("task-management-app", "task-management-app", true, 20231001),
    PortfolioProject("weather-dashboard", "weather-dashboard", false, 20230801),
    PortfolioProject("blog-platform", "blog-platform", false, 20230601)]

  /** `getHomePageContent`: the static content, never null. */
  function GetHomePageContent(): (r: Option<HomePageContent>)
    ensures r.Some? && r.value.contactEmail == "hello@example.com" && |r.value.skills| == 8
  {
    Some(HomePage)
  }

  /** A post is dated by its publication date, or else its creation date. */
  function PostDate(p: BlogPost): int
  {
    p.publishedDate.GetOr(p.createdAt)
  }

  /** An experience is dated by its start date, or else its creation date. */
  function ExperienceDate(w: WorkExperience): int
  {
    w.startDate.GetOr(w.createdAt)
  }

  function ProjectDate(p: PortfolioProject): int
  {
    p.createdAt
  }

  /** `getBlogPosts`: the posts, newest first. */
  function GetBlogPosts(posts: seq<BlogPost>): (r: seq<BlogPost>)
    ensures multiset(r) == multiset(posts)
    ensures NonIncreasing(r, PostDate)
  {
    SortDesc(posts, PostDate)
  }

  /** `getWorkExperiences`: the experiences, most recent start first. */
  function GetWorkExperiences(items: seq<WorkExperience>): (r: seq<WorkExperience>)
    ensures multiset(r) == multiset(items)
    ensures NonIncreasing(r, ExperienceDate)
  {
    SortDesc(items, ExperienceDate)
  }

  /** `getPortfolioProjects`: the projects, newest first. */
  function GetPortfolioProjects(projects: seq<PortfolioProject>): (r: seq<PortfolioProject>)
    ensures multiset(r) == multiset(projects)
    ensures NonIncreasing(r, ProjectDate)
  {
    SortDesc(projects, ProjectDate)
  }

  /** `.filter(project => project.featured)`: the featured projects in their
      original order (`FeaturedOnlyAppend`), each as often as it occurs
      (`FeaturedOnlyCounts`). */
  function FeaturedOnly(projects: seq<PortfolioProject>): (r: seq<PortfolioProject>)
    ensures forall p :: p in r <==> p in projects && p.featured
  {
    if projects == [] then []
    else
      assert projects == [projects[0]] + projects[1..];
      if projects[0].featured then [projects[0]] + FeaturedOnly(projects[1..])
      else FeaturedOnly(projects[1..])
  }

  /** The filter keeps the order: filtering a concatenation concatenates
      the filtered parts. With `FeaturedOnlyCons` this pins the filter down
      as the order-preserving one. */
  lemma {:induction false} FeaturedOnlyAppend(a: seq<PortfolioProject>, b: seq<PortfolioProject>)
    ensures FeaturedOnly(a + b) == FeaturedOnly(a) + FeaturedOnly(b)
  {
    if a == [] {
      assert a + b == b;
    } else {
      var x := a[0];
      assert a == [x] + a[1..];
      assert a + b == [x] + (a[1..] + b);
      FeaturedOnlyCons(x, a[1..] + b);
      FeaturedOnlyCons(x, a[1..]);
      FeaturedOnlyAppend(a[1..], b);
      var h := if x.featured then [x] else [];
      assert h + (FeaturedOnly(a[1..]) + FeaturedOnly(b)) == (h + FeaturedOnly(a[1..])) + FeaturedOnly(b);
    }
  }

  /** The filter keeps every featured project as often as it occurs and
      drops every other one. */
  lemma {:induction false} FeaturedOnlyCounts(projects: seq<PortfolioProject>, p: PortfolioProject)
    ensures multiset(FeaturedOnly(projects))[p] == if p.featured then multiset(projects)[p] else 0
  {
    if projects != [] {
      var x := projects[0];
      assert projects == [x] + projects[1..];
      FeaturedOnlyCons(x, projects[1..]);
      FeaturedOnlyCounts(projects[1..], p);
    }
  }

  /** A project in front is kept exactly when it is featured. */
  lemma FeaturedOnlyCons(x: PortfolioProject, s: seq<PortfolioProject>)
    ensures FeaturedOnly([x] + s) == (if x.featured then [x] else []) + FeaturedOnly(s)
  {
    assert ([x] + s)[0] == x;
    assert ([x] + s)[1..] == s;
  }

  /** `getFeaturedProjects`: exactly the featured projects, each as often as
      it occurs, newest first. */
  function GetFeaturedProjects(projects: seq<PortfolioProject>): (r: seq<PortfolioProject>)
    ensures multiset(r) == multiset(FeaturedOnly(projects))
    ensures forall p :: p in r <==> p in projects && p.featured
    ensures NonIncreasing(r, ProjectDate)
  {
    var f := FeaturedOnly(projects);
    var r := SortDesc(f, ProjectDate);
    assert forall p :: p in r <==> p in multiset(f);
    r
  }

  /** `getBlogPost`: the first post with the slug, or null. */
  function GetBlogPost(posts: seq<BlogPost>, slug: string): (r: Option<BlogPost>)
    ensures r.None? <==> forall p :: p in posts ==> p.slug != slug
    ensures r.Some? ==> r.value in posts && r.value.slug == slug
  {
    if posts == [] then None
    else if posts[0].slug == slug then Some(posts[0])
    else
      assert forall p :: p in posts ==> p == posts[0] || p in posts[1..];
      GetBlogPost(posts[1..], slug)
  }

  /** The post found is the first one carrying the slug. */
  lemma {:induction false} GetBlogPostFindsFirst(posts: seq<BlogPost>, slug: string)
    ensures GetBlogPost(posts, slug).Some? ==>
      exists i :: 0 <= i < |posts| && posts[i] == GetBlogPost(posts, slug).value
                  && forall j :: 0 <= j < i ==> posts[j].slug != slug
  {
    if posts != [] && posts[0].slug != slug {
      GetBlogPostFindsFirst(posts[1..], slug);
      var r := GetBlogPost(posts[1..], slug);
      if r.Some? {
        var i :| 0 <= i < |posts[1..]| && posts[1..][i] == r.value
                 && forall j :: 0 <= j < i ==> posts[1..][j].slug != slug;
        assert posts[i + 1] == r.value;
        forall j | 0 <= j < i + 1
          ensures posts[j].slug != slug
        {
          if j > 0 {
            assert posts[j] == posts[1..][j - 1];
          }
        }
      }
    } else if posts != [] {
      assert posts[0] == GetBlogPost(posts, slug).value;
    }
  }

  /** Sorting keeps the posts that share a date, and the experiences that
      share a start, in the order they were stored in. */
  lemma QueriesAreStable(posts: seq<BlogPost>, items: seq<WorkExperience>, projects: seq<PortfolioProject>, d: int)
    ensures WithKey(GetBlogPosts(posts), PostDate, d) == WithKey(posts, PostDate, d)
    ensures WithKey(GetWorkExperiences(items), ExperienceDate, d) == WithKey(items, ExperienceDate, d)
    ensures WithKey(GetPortfolioProjects(projects), ProjectDate, d) == WithKey(projects, ProjectDate, d)
    ensures WithKey(GetFeaturedProjects(projects), ProjectDate, d) == WithKey(FeaturedOnly(projects), ProjectDate, d)
  {
    SortDescIsStable(posts, PostDate, d);
    SortDescIsStable(items, ExperienceDate, d);
    SortDescIsStable(projects, ProjectDate, d);
    SortDescIsStable(FeaturedOnly(projects), ProjectDate, d);
  }

  /** The sort happens in place on the shared array: a later call sorts the
      already sorted array and returns the same sequence. */
  lemma RepeatedQueriesAgree(posts: seq<BlogPost>, items: seq<WorkExperience>, projects: seq<PortfolioProject>)
    ensures GetBlogPosts(GetBlogPosts(posts)) == GetBlogPosts(posts)
    ensures GetWorkExperiences(GetWorkExperiences(items)) == GetWorkExperiences(items)
    ensures GetPortfolioProjects(GetPortfolioProjects(projects)) == GetPortfolioProjects(projects)
  {
    SortDescIdempotent(posts, PostDate);
    SortDescIdempotent(items, ExperienceDate);
    SortDescIdempotent(projects, ProjectDate);
  }

  /** With the shipped projects, the featured list is the e-commerce
      platform followed by `task-management-app`. */
  lemma ShippedFeaturedProjects()
    ensures GetFeaturedProjects(Projects) == [Projects[0], Projects[1]]
  {
    assert FeaturedOnly(Projects) == [Projects[0], Projects[1]];
    assert NonIncreasing([Projects[0], Projects[1]], ProjectDate);
    SortDescOfSorted([Projects[0], Projects[1]], ProjectDate);
  }
}

=== FILE: file_url.dfy ===
/** Resolution of CMS file fields (featured images, avatar photos) to URLs.
    A file field is absent, a string (an asset UID starting with `blt`, or
    a URL), a list of file objects, or a single file object. */
module FileUrl {
  import opened Wrappers
  import opened Text

  /** A file object; an absent or empty `url` is the empty string. */
  datatype FileObject = FileObject(url: string)

  datatype FileField =
    | NoFile
    | FileString(s: string)
    | FileList(files: seq<FileObject>)
    | FileObj(file: FileObject)

  /** The stack key used when the public API key is not configured. */
  const DefaultStackKey := "bltf30bb27542f99789"

  const AssetPrefix := "https://images.contentstack.io/v3/assets/"
  const DownloadSuffix := "/download"

  /** `!fileField`: absent, or the empty string. */
  predicate Falsy(f: FileField)
  {
    f.NoFile? || f == FileString("")
  }

  /** A string field holding an asset UID. */
  predicate IsAssetUid(f: FileField)
  {
    f.FileString? && StartsWith(f.s, "blt")
  }

  /** The CDN download URL of asset `uid` in stack `key`. */
  function DeliveryUrl(key: string, uid: string): (r: string)
    ensures StartsWith(r, AssetPrefix)
    ensures |r| == |AssetPrefix| + |key| + 1 + |uid| + |DownloadSuffix|
  {
    AssetPrefix + key + "/" + uid + DownloadSuffix
  }

  /** The stack key: the configured public API key, or the default. */
  function StackKey(envKey: string): (r: string)
    ensures r != ""
    ensures envKey != "" ==> r == envKey
  {
    if envKey != "" then envKey else DefaultStackKey
  }

  /** `fileObject.url || null`. */
  function UrlOrNull(o: FileObject): (r: Option<string>)
    ensures r.Some? <==> o.url != ""
    ensures r.Some? ==> r.value == o.url
  {
    if o.url != "" then Some(o.url) else None
  }

  /** `getFileUrl` of the portfolio and blog cards. */
  function FileUrl(f: FileField, envKey: string): (r: Option<string>)
    ensures Falsy(f) ==> r.None?
    ensures IsAssetUid(f) ==> r == Some(DeliveryUrl(StackKey(envKey), f.s))
    ensures f.FileString? && f.s != "" && !IsAssetUid(f) ==> r == Some(f.s)
    ensures f.FileList? && |f.files| > 0 ==> r == UrlOrNull(f.files[0])
    ensures f.FileList? && |f.files| == 0 ==> r.None?
    ensures f.FileObj? ==> r == UrlOrNull(f.file)
    ensures r.Some? ==> r.value != ""
  {
    match f
    case NoFile => None
    case FileString(s) =>
      if s == "" then None
      else if StartsWith(s, "blt") then Some(DeliveryUrl(StackKey(envKey), s))
      else Some(s)
    case FileList(files) => if |files| > 0 then UrlOrNull(files[0]) else None
    case FileObj(o) => UrlOrNull(o)
  }

  /** `getAvatarUrl` of the hero: like `getFileUrl`, except that an asset
      UID is left for the asset lookup and gives null here. */
  function AvatarUrl(f: FileField): (r: Option<string>)
    ensures IsAssetUid(f) ==> r.None?
    ensures r.Some? ==> r.value != ""
  {
    match f
    case NoFile => None
    case FileString(s) => if s == "" || StartsWith(s, "blt") then None else Some(s)
    case FileList(files) => if |files| > 0 then UrlOrNull(files[0]) else None
    case FileObj(o) => UrlOrNull(o)
  }

  /** The two resolvers agree on every field except an asset UID. */
  lemma AvatarAgreesWithFileUrl(f: FileField, envKey: string)
    ensures !IsAssetUid(f) ==> AvatarUrl(f) == FileUrl(f, envKey)
    ensures IsAssetUid(f) ==> AvatarUrl(f).None? && FileUrl(f, envKey).Some?
  {
  }

  /** The position of the first `/` in `s`, if any. */
  function FirstSlash(s: string): (r: Option<nat>)
    ensures r.Some? ==> r.value < |s| && s[r.value] == '/' && '/' !in s[..r.value]
    ensures r.None? ==> '/' !in s
  {
    if s == [] then None
    else if s[0] == '/' then Some(0)
    else
      var rest := FirstSlash(s[1..]);
      if rest.None? then None
      else
        assert s[..rest.value + 1] == [s[0]] + s[1..][..rest.value];
        Some(rest.value + 1)
  }

  /** Reads the stack key and asset UID back out of a download URL. */
  function ParseDeliveryUrl(url: string): (r: Option<(string, string)>)
    ensures r.Some? ==> '/' !in r.value.0
  {
    if |url| >= |AssetPrefix| + |DownloadSuffix| && StartsWith(url, AssetPrefix)
       && url[|url| - |DownloadSuffix|..] == DownloadSuffix then
      var middle := url[|AssetPrefix|..|url| - |DownloadSuffix|];
      var slash := FirstSlash(middle);
      if slash.Some? then Some((middle[..slash.value], middle[slash.value + 1..])) else None
    else None
  }

  /** A download URL names its stack and asset unambiguously: parsing it
      gives back the key and UID it was built from, whenever the key holds
      no `/` (as stack keys never do). */
  lemma {:induction false} ParseDeliveryUrlInverse(key: string, uid: string)
    requires '/' !in key
    ensures ParseDeliveryUrl(DeliveryUrl(key, uid)) == Some((key, uid))
  {
    var url := DeliveryUrl(key, uid);
    var middle := key + "/" + uid;
    assert url == AssetPrefix + middle + DownloadSuffix;
    assert url[|url| - |DownloadSuffix|..] == DownloadSuffix;
    assert url[|AssetPrefix|..|url| - |DownloadSuffix|] == middle;
    assert middle[|key|] == '/';
    assert middle[..|key|] == key;
    SlashAfterKey(key, uid);
    assert middle[|key| + 1..] == uid;
  }

  /** A slash-free prefix only shifts the first slash. */
  lemma {:induction false} FirstSlashAfterPrefix(a: string, b: string)
    requires '/' !in a
    ensures FirstSlash(a + b) == if FirstSlash(b).Some? then Some(|a| + FirstSlash(b).value) else None
  {
    if a != [] {
      assert a[0] in a;
      assert (a + b)[1..] == a[1..] + b;
      assert '/' !in a[1..] by {
        forall k | 0 <= k < |a[1..]|
          ensures a[1..][k] != '/'
        {
          assert a[1..][k] == a[k + 1];
          assert a[k + 1] in a;
        }
      }
      FirstSlashAfterPrefix(a[1..], b);
    } else {
      assert a + b == b;
    }
  }

  lemma SlashAfterKey(key: string, uid: string)
    requires '/' !in key
    ensures FirstSlash(key + "/" + uid) == Some(|key|)
  {
    assert key + "/" + uid == key + ("/" + uid);
    FirstSlashAfterPrefix(key, "/" + uid);
  }

  /** With the public key unset, every asset UID resolves into the default
      stack. */
  lemma UnsetKeyUsesDefaultStack(uid: string)
    requires StartsWith(uid, "blt")
    ensures ParseDeliveryUrl(FileUrl(FileString(uid), "").value) == Some((DefaultStackKey, uid))
  {
    ParseDeliveryUrlInverse(DefaultStackKey, uid);
  }
}

=== FILE: footer.dfy ===
/** The footer: the social links (e-mail always, GitHub and LinkedIn when
    configured) and the site name in the brand and the copyright line. The
    current year is an input. */
module Footer {
  import opened Wrappers
  import opened Text
  import opened Site

  datatype SocialLink = SocialLink(href: string, name: string)

  /** A link with its `show` flag, before filtering. */
  datatype Candidate = Candidate(link: SocialLink, show: bool)

  /** `.filter(link => link.show)`: the shown links, in their order. */
  function Shown(cs: seq<Candidate>): (r: seq<SocialLink>)
    ensures |r| <= |cs|
    ensures forall l :: l in r <==> exists c :: c in cs && c.show && c.link == l
  {
    if cs == [] then []
    else
      assert forall c :: c in cs <==> c == cs[0] || c in cs[1..];
      (if cs[0].show then [cs[0].link] else []) + Shown(cs[1..])
  }

  function EmailLink(c: Option<SiteConfiguration>): SocialLink
  {
    SocialLink("mailto:" + Or(Config(c).ownerEmail, "hello@example.com"), "Email")
  }

  /** The three candidate links with their `show` flags, in page order. */
  function Candidates(c: Option<SiteConfiguration>): seq<Candidate>
  {
    [Candidate(EmailLink(c), true),
     Candidate(SocialLink(Config(c).githubUrl, "GitHub"), Config(c).githubUrl != ""),
     Candidate(SocialLink(Config(c).linkedinUrl, "LinkedIn"), Config(c).linkedinUrl != "")]
  }

  /** The social links the footer renders: the candidates it filters. */
  function SocialLinks(c: Option<SiteConfiguration>): (r: seq<SocialLink>)
    ensures r == Shown(Candidates(c))
    ensures |r| >= 1 && r[0] == EmailLink(c)
    ensures Config(c).ownerEmail == "" ==> r[0].href == "mailto:hello@example.com"
    ensures forall l :: l in r ==> l.href != ""
  {
    var cfg := Config(c);
    var links := [EmailLink(c)]
      + (if cfg.githubUrl != "" then [SocialLink(cfg.githubUrl, "GitHub")] else [])
      + (if cfg.linkedinUrl != "" then [SocialLink(cfg.linkedinUrl, "LinkedIn")] else []);
    var cs := Candidates(c);
    ShownOfThree(cs[0], cs[1], cs[2]);
    assert cs == [cs[0], cs[1], cs[2]];
    links
  }

  /** The filter over three candidates, written out. */
  lemma ShownOfThree(a: Candidate, b: Candidate, c: Candidate)
    ensures Shown([a, b, c]) == (if a.show then [a.link] else []) + (if b.show then [b.link] else [])
                                + (if c.show then [c.link] else [])
  {
    var x, y, z := (if a.show then [a.link] else []), (if b.show then [b.link] else []),
                   (if c.show then [c.link] else []);
    assert [c][1..] == [];
    assert Shown([c]) == z + Shown([]);
    assert [b, c][1..] == [c];
    assert Shown([b, c]) == y + z;
    assert [a, b, c][1..] == [b, c];
    assert Shown([a, b, c]) == x + (y + z);
    assert x + (y + z) == x + y + z;
  }

  /** The site name of the brand and the copyright line. */
  function SiteName(c: Option<SiteConfiguration>): (r: string)
    ensures Config(c).siteName != "" ==> r == Config(c).siteName
    ensures Config(c).siteName == "" ==> r == "Personal Website"
  {
    Or(Config(c).siteName, "Personal Website")
  }

  datatype FooterView = FooterView(brand: string, bio: string, links: seq<SocialLink>, copyright: string)

  function View(c: Option<SiteConfiguration>, year: int): (r: FooterView)
    ensures r.brand == SiteName(c)
    ensures r.copyright == "© " + IntToString(year) + " " + r.brand + ". All rights reserved."
    ensures r.links == SocialLinks(c)
    ensures Config(c).bio != "" ==> r.bio == Config(c).bio
    ensures Config(c).bio == "" ==> r.bio == "Just another vibe coder looking for a token."
  {
    FooterView(SiteName(c), Or(Config(c).bio, "Just another vibe coder looking for a token."),
               SocialLinks(c), "© " + IntToString(year) + " " + SiteName(c) + ". All rights reserved.")
  }
}

=== FILE: hero.dfy ===
/** The hero section: the avatar (resolved directly, or looked up through
    the asset endpoint when the field holds an asset UID), the headline
    texts and the placeholder initial. The asset endpoint's answer is an
    input. */
module Hero {
  import opened Wrappers
  import opened Text
  import opened FileUrl
  import opened Site

  /** What `fetch('/api/asset/<uid>')` produced: a thrown error, or a
      response with its `ok` flag and the `url` of its JSON body (`""` when
      the body has none). */
  datatype AssetReply = FetchThrew | AssetResponse(ok: bool, url: string)

  /** The avatar state once the effect has finished: the URL, the loading
      flag, and the asset path requested, if any. */
  datatype Avatar = Avatar(url: Option<string>, loading: bool, requested: Option<string>)

  /** The avatar effect. Only an asset UID is looked up; every other field
      is resolved directly. A failed or thrown lookup leaves no avatar, and
      loading always ends. */
  function AvatarEffect(photo: FileField, reply: AssetReply): (r: Avatar)
    ensures r.requested.Some? <==> IsAssetUid(photo)
    ensures IsAssetUid(photo) ==> r.requested == Some("/api/asset/" + photo.s)
    ensures !IsAssetUid(photo) ==> r.url == AvatarUrl(photo)
    ensures IsAssetUid(photo) && (reply.FetchThrew? || !reply.ok) ==> r.url.None?
    ensures IsAssetUid(photo) && reply.AssetResponse? && reply.ok && reply.url != "" ==> r.url == Some(reply.url)
    ensures !r.loading
  {
    if !IsAssetUid(photo) then Avatar(AvatarUrl(photo), false, None)
    else
      var url := match reply
        case FetchThrew => None
        case AssetResponse(ok, u) => if ok && u != "" then Some(u) else None;
      Avatar(url, false, Some("/api/asset/" + photo.s))
  }

  /** `s.charAt(0)`: the first character, or `""` for the empty string. */
  function CharAt0(s: string): (r: string)
    ensures |r| == if s == "" then 0 else 1
    ensures r <= s
  {
    if s == "" then "" else s[..1]
  }

  /** The placeholder letter: the owner's initial, else the title's, else `U`. */
  function Initial(c: Option<SiteConfiguration>, content: Option<HomePageContent>): (r: string)
    ensures |r| == 1
    ensures Config(c).ownerName != "" ==> r == Config(c).ownerName[..1]
    ensures Config(c).ownerName == "" && Content(content).title != "" ==> r == Content(content).title[..1]
    ensures Config(c).ownerName == "" && Content(content).title == "" ==> r == "U"
  {
    Or(Or(CharAt0(Config(c).ownerName), CharAt0(Content(content).title)), "U")
  }

  /** What the avatar slot shows. */
  datatype AvatarSlot = Pulsing(initial: string) | Picture(src: string, alt: string) | Placeholder(initial: string)

  function AvatarView(a: Avatar, c: Option<SiteConfiguration>, content: Option<HomePageContent>): (r: AvatarSlot)
    ensures a.loading ==> r.Pulsing?
    ensures !a.loading && a.url.Some? && a.url.value != "" ==> r == Picture(a.url.value, Or(Config(c).ownerName, "Profile"))
    ensures !a.loading && (a.url.None? || a.url.value == "") ==> r == Placeholder(Initial(c, content))
  {
    if a.loading then Pulsing(Initial(c, content))
    else if a.url.Some? && a.url.value != "" then Picture(a.url.value, Or(Config(c).ownerName, "Profile"))
    else Placeholder(Initial(c, content))
  }

  datatype HeroText = HeroText(headline: string, subtitle: string, body: string)

  /** The three text chains of the hero. */
  function Texts(c: Option<SiteConfiguration>, content: Option<HomePageContent>): (r: HeroText)
    ensures Config(c).ownerName != "" ==> r.headline == Config(c).ownerName
    ensures Config(c).ownerName == "" ==> r.headline == Or(Content(content).heroHeadline, "Your Name")
    ensures Config(c).siteSubtitle != "" ==> r.subtitle == Config(c).siteSubtitle
    ensures Config(c).siteSubtitle == "" ==> r.subtitle == Or(Content(content).heroHeadline, "Creator & Developer")
    ensures Config(c).bio != "" ==> r.body == Config(c).bio
    ensures Config(c).bio == "" ==> r.body == Or(Content(content).heroSubtext, "Welcome to my digital space where I share my work and journey.")
    ensures r.headline != "" && r.subtitle != "" && r.body != ""
  {
    HeroText(
      Or(Or(Config(c).ownerName, Content(content).heroHeadline), "Your Name"),
      Or(Or(Config(c).siteSubtitle, Content(content).heroHeadline), "Creator & Developer"),
      Or(Or(Config(c).bio, Content(content).heroSubtext), "Welcome to my digital space where I share my work and journey."))
  }

  /** With neither a configuration nor home content, the hero shows its
      defaults and the letter `U`. */
  lemma EmptyHero()
    ensures Texts(None, None) == HeroText("Your Name", "Creator & Developer", "Welcome to my digital space where I share my work and journey.")
    ensures AvatarView(AvatarEffect(NoFile, FetchThrew), None, None) == Placeholder("U")
  {
  }

  /** A direct URL never triggers a lookup and is shown as is. */
  lemma DirectUrlShownAsIs(url: string, reply: AssetReply, c: SiteConfiguration, content: Option<HomePageContent>)
    requires url != "" && !StartsWith(url, "blt") && c.avatarPhoto == FileString(url)
    ensures AvatarView(AvatarEffect(c.avatarPhoto, reply), Some(c), content) == Picture(url, Or(c.ownerName, "Profile"))
  {
  }
}

=== FILE: json.dfy ===
/** JavaScript values as the content-management SDK and its management API
    hand them over, with the few pieces of JavaScript semantics the site's
    code relies on: truthiness, `v[0]`, `v.key`, `v?.key` and `.length > 0`.

    `undefined` is not a value of `Json`; a lookup that yields `undefined`
    returns `None`. */
module Json {
  import opened Wrappers

  datatype Json =
    | JNull
    | JBool(b: bool)
    | JNum(n: int)
    | JStr(s: string)
    | JArr(items: seq<Json>)
    | JObj(fields: map<string, Json>)

  /** JavaScript truthiness: `null`, `false`, `0` and `""` are falsy, every
      array and every object (even an empty one) is truthy. */
  predicate Truthy(v: Json)
  {
    match v
    case JNull => false
    case JBool(b) => b
    case JNum(n) => n != 0
    case JStr(s) => s != ""
    case JArr(_) => true
    case JObj(_) => true
  }

  /** Truthiness of a value that may be `undefined`. */
  predicate TruthyOpt(o: Option<Json>)
  {
    o.Some? && Truthy(o.value)
  }

  /** `v.key` on a value that is not `null`: an object's own property, and
      `undefined` for every other kind of value. */
  function Member(v: Json, key: string): (r: Option<Json>)
    ensures r.Some? ==> v.JObj? && key in v.fields && r.value == v.fields[key]
    ensures v.JObj? && key in v.fields ==> r.Some?
  {
    if v.JObj? && key in v.fields then Some(v.fields[key]) else None
  }

  /** Optional chaining `v?.key`: `undefined` when `v` is `null` or `undefined`. */
  function OptMember(o: Option<Json>, key: string): Option<Json>
  {
    if o.None? || o.value.JNull? then None else Member(o.value, key)
  }

  /** `v[0]` on a value that is not `null`: the first element of an array, the
      first character of a string, an object's property "0", else `undefined`. */
  function Index0(v: Json): (r: Option<Json>)
    ensures v.JArr? && |v.items| > 0 ==> r == Some(v.items[0])
    ensures v.JStr? && |v.s| > 0 ==> r == Some(JStr(v.s[..1]))
    ensures (v.JArr? && |v.items| == 0) || (v.JStr? && |v.s| == 0) ==> r.None?
  {
    match v
    case JArr(items) => if |items| > 0 then Some(items[0]) else None
    case JStr(s) => if |s| > 0 then Some(JStr(s[..1])) else None
    case JObj(fields) => if "0" in fields then Some(fields["0"]) else None
    case _ => None
  }

  /** `v.length > 0`, for the arrays and strings that have a length; any other
      value has an `undefined` length, and `undefined > 0` is false. */
  predicate LengthPositive(v: Json)
  {
    (v.JArr? && |v.items| > 0) || (v.JStr? && |v.s| > 0)
  }

  /** `v && typeof v === 'object' && Object.keys(v).length > 0`: a non-empty
      object, or a non-empty array (arrays are objects whose keys are indices). */
  predicate IsPopulatedObject(v: Json)
  {
    (v.JObj? && |v.fields| > 0) || (v.JArr? && |v.items| > 0)
  }
}

=== FILE: lists.dfy ===
/** The "show the first few, then a `+k more` badge" rule the portfolio
    cards (technologies) and blog cards (tags) share. */
module Lists {
  import opened Wrappers

  /** What a card shows of a list: the leading items, and the `k` of the
      `+k more` badge when there is one. */
  datatype Truncated<T> = Truncated(shown: seq<T>, more: Option<nat>)

  function Min(a: nat, b: nat): nat
  {
    if a <= b then a else b
  }

  /** `items.slice(0, limit)` followed by `items.length > limit && '+' + (items.length - limit) + ' more'`. */
  function Truncate<T>(items: seq<T>, limit: nat): (r: Truncated<T>)
    ensures |r.shown| == Min(limit, |items|)
    ensures r.shown <= items
    ensures r.more.Some? <==> |items| > limit
    ensures |r.shown| + r.more.GetOr(0) == |items|
  {
    if |items| > limit then Truncated(items[..limit], Some(|items| - limit))
    else Truncated(items, None)
  }
}

=== FILE: metadata.dfy ===
/** The page metadata built from the site configuration. */
module Metadata {
  import opened Wrappers
  import opened Site

  datatype Metadata = Metadata(
    title: string,
    description: string,
    keywords: seq<string>,
    authors: seq<string>,
    openGraphTitle: string,
    openGraphDescription: string,
    openGraphType: string,
    twitterCard: string,
    twitterTitle: string,
    twitterDescription: string)

  /** `generateMetadata`, given what `getSiteConfiguration` returned. */
  function GenerateMetadata(c: Option<SiteConfiguration>): (r: Metadata)
    ensures var site := if Config(c).siteName != "" then Config(c).siteName else "My Personal Site";
            var owner := if Config(c).ownerName != "" then Config(c).ownerName else "Your Name";
            r.title == site + " - " + owner && r.authors == [owner]
    ensures Config(c).bio != "" ==> r.description == Config(c).bio
    ensures Config(c).bio == "" ==> r.description == "Welcome to my digital space"
    ensures r.openGraphTitle == r.title && r.twitterTitle == r.title
    ensures r.openGraphDescription == r.description && r.twitterDescription == r.description
    ensures r.keywords == ["portfolio", "developer", "creator", "personal site"]
    ensures r.openGraphType == "website" && r.twitterCard == "summary_large_image"
  {
    var cfg := Config(c);
    var siteName := Or(cfg.siteName, "My Personal Site");
    var ownerName := Or(cfg.ownerName, "Your Name");
    var bio := Or(cfg.bio, "Welcome to my digital space");
    var title := siteName + " - " + ownerName;
    Metadata(title, bio, ["portfolio", "developer", "creator", "personal site"], [ownerName],
             title, bio, "website", "summary_large_image", title, bio)
  }

  /** The owner named in the title is the one author, and it can be read off
      the end of the title. */
  lemma {:induction false} TitleEndsWithAuthor(c: Option<SiteConfiguration>)
    ensures var m := GenerateMetadata(c);
      |m.authors| == 1 && |m.title| >= |m.authors[0]| + 3
      && m.title[|m.title| - |m.authors[0]|..] == m.authors[0]
      && m.title[|m.title| - |m.authors[0]| - 3..|m.title| - |m.authors[0]|] == " - "
  {
    var m := GenerateMetadata(c);
    var owner := m.authors[0];
    var site := m.title[..|m.title| - |owner| - 3];
    assert m.title == site + " - " + owner;
  }
}

=== FILE: navigation.dfy ===
/** The navigation bar's theme preference, mobile menu and active-item
    logic. Local storage (`theme`), the system colour-scheme query and the
    root element's class list are part of the state record; the system
    preference is an input of each transition that reads it. */
module Navigation {
  import opened Wrappers
  import ActiveSection

  /** The bar's state: the dark flag, the stored `theme` entry, the classes
      on the root element, and whether the mobile menu is open. */
  datatype Nav = Nav(isDark: bool, saved: Option<string>, classes: set<string>, isOpen: bool)

  /** `!localStorage.getItem('theme')`: nothing stored, or the empty string. */
  predicate NoSavedPreference(saved: Option<string>)
  {
    saved.None? || saved.value == ""
  }

  /** The root element carries exactly the theme class matching `isDark`. */
  predicate ClassesMatch(n: Nav)
  {
    ("dark" in n.classes <==> n.isDark) && ("light" in n.classes <==> !n.isDark)
  }

  /** A stored `dark` or `light` agrees with the displayed theme. */
  predicate SavedMatches(n: Nav)
  {
    (n.saved == Some("dark") ==> n.isDark) && (n.saved == Some("light") ==> !n.isDark)
  }

  predicate Consistent(n: Nav)
  {
    ClassesMatch(n) && SavedMatches(n)
  }

  /** `updateThemeClasses`: removes both theme classes, then adds the one
      for `dark`. */
  function UpdateThemeClasses(classes: set<string>, dark: bool): (r: set<string>)
    ensures "dark" in r <==> dark
    ensures "light" in r <==> !dark
    ensures forall c :: c != "dark" && c != "light" ==> (c in r <==> c in classes)
  {
    (classes - {"dark", "light"}) + {if dark then "dark" else "light"}
  }

  /** The theme the mount effect starts with: a stored `dark` or `light`
      wins, anything else follows the system. */
  function InitialDark(saved: Option<string>, systemDark: bool): (r: bool)
    ensures saved == Some("dark") ==> r
    ensures saved == Some("light") ==> !r
    ensures saved != Some("dark") && saved != Some("light") ==> r == systemDark
  {
    if saved == Some("dark") then true
    else if saved == Some("light") then false
    else systemDark
  }

  /** The state after the mount effect. */
  function Mount(saved: Option<string>, systemDark: bool, classes: set<string>): (r: Nav)
    ensures Consistent(r)
    ensures r.saved == saved && !r.isOpen
  {
    var dark := InitialDark(saved, systemDark);
    Nav(dark, saved, UpdateThemeClasses(classes, dark), false)
  }

  /** `toggleTheme`: flips the theme and stores the new choice. */
  function ToggleTheme(n: Nav): (r: Nav)
    ensures r.isDark == !n.isDark
    ensures r.saved == Some(if r.isDark then "dark" else "light")
    ensures Consistent(r)
    ensures r.isOpen == n.isOpen
  {
    var dark := !n.isDark;
    n.(isDark := dark, saved := Some(if dark then "dark" else "light"),
       classes := UpdateThemeClasses(n.classes, dark))
  }

  /** `resetToSystemTheme`: forgets the stored choice and follows the system. */
  function ResetToSystemTheme(n: Nav, systemDark: bool): (r: Nav)
    ensures r.saved == None && r.isDark == systemDark
    ensures Consistent(r)
    ensures r.isOpen == n.isOpen
  {
    n.(isDark := systemDark, saved := None, classes := UpdateThemeClasses(n.classes, systemDark))
  }

  /** The listener for a change of the system colour scheme: it applies the
      new scheme only while no preference is stored. */
  function SystemChanged(n: Nav, systemDark: bool): (r: Nav)
    ensures NoSavedPreference(n.saved) ==> r.isDark == systemDark && ClassesMatch(r)
    ensures !NoSavedPreference(n.saved) ==> r == n
    ensures r.saved == n.saved && r.isOpen == n.isOpen
    ensures Consistent(n) ==> Consistent(r)
  {
    if NoSavedPreference(n.saved) then
      n.(isDark := systemDark, classes := UpdateThemeClasses(n.classes, systemDark))
    else n
  }

  /** `scrollToSection`: whatever the page holds, the mobile menu closes. */
  function ScrollToSection(n: Nav): (r: Nav)
    ensures !r.isOpen
    ensures r.(isOpen := n.isOpen) == n
  {
    n.(isOpen := false)
  }

  /** The menu button: opens a closed menu and closes an open one, leaving
      the theme alone. */
  function ToggleMenu(n: Nav): (r: Nav)
    ensures r.isOpen != n.isOpen
    ensures r.(isOpen := n.isOpen) == n
  {
    n.(isOpen := !n.isOpen)
  }

  /** The logo text: the site name, or `CS`. */
  function Logo(siteName: string): (r: string)
    ensures r != ""
    ensures siteName != "" ==> r == siteName
    ensures siteName == "" ==> r == "CS"
  {
    if siteName != "" then siteName else "CS"
  }

  /** Choosing a section from the open mobile menu closes it, and the
      theme is untouched by either menu action. */
  lemma MenuActionsKeepTheme(n: Nav)
    ensures !ScrollToSection(ToggleMenu(n)).isOpen
    ensures ToggleMenu(ToggleMenu(n)) == n
    ensures Consistent(n) ==> Consistent(ToggleMenu(n)) && Consistent(ScrollToSection(n))
  {
  }

  /** Changing the theme touches no class other than the two theme classes. */
  lemma ThemeChangesOnlyThemeClasses(n: Nav, systemDark: bool, c: string)
    requires c != "dark" && c != "light"
    ensures c in ToggleTheme(n).classes <==> c in n.classes
    ensures c in ResetToSystemTheme(n, systemDark).classes <==> c in n.classes
    ensures c in SystemChanged(n, systemDark).classes <==> c in n.classes
  {
  }

  /** Toggling twice restores the theme and the class list of a consistent
      state; the stored choice is then the one matching the theme. */
  lemma ToggleTwice(n: Nav)
    requires ClassesMatch(n)
    ensures ToggleTheme(ToggleTheme(n)).isDark == n.isDark
    ensures ToggleTheme(ToggleTheme(n)).classes == n.classes
    ensures ToggleTheme(ToggleTheme(n)).saved == Some(if n.isDark then "dark" else "light")
  {
    var r := ToggleTheme(ToggleTheme(n));
    forall c
      ensures c in r.classes <==> c in n.classes
    {
    }
  }

  /** Once a choice is stored by toggling, system changes are ignored until
      the preference is reset. */
  lemma ToggleShieldsFromSystem(n: Nav, systemDark: bool)
    ensures SystemChanged(ToggleTheme(n), systemDark) == ToggleTheme(n)
  {
  }

  /** A stored value other than `dark` or `light` makes the first render
      follow the system, yet it still counts as a stored preference, so later
      system changes are ignored. */
  lemma UnknownSavedValue(systemDark: bool, later: bool, classes: set<string>)
    ensures Mount(Some("sepia"), systemDark, classes).isDark == systemDark
    ensures SystemChanged(Mount(Some("sepia"), systemDark, classes), later).isDark == systemDark
  {
  }

  // ---------------------------------------------------------------------
  // Active item
  // ---------------------------------------------------------------------

  /** An item of the bar: internal items scroll to the section `id`, the
      external one links to its own page. */
  datatype NavItem = NavItem(id: Option<string>, href: Option<string>, text: string, isExternal: bool)

  const NavItems: seq<NavItem> := [
    NavItem(Some("home"), None, "Home", false),
    NavItem(Some("about"), None, "About", false),
    NavItem(Some("work"), None, "Experience", false),
    NavItem(Some("portfolio"), None, "Portfolio", false),
    NavItem(None, Some("/blog"), "Blog", true),
    NavItem(Some("contact"), None, "Contact", false)]

  /** `toLowerCase` on the ASCII letters. */
  function Lower(s: string): (r: string)
    ensures |r| == |s|
    ensures forall i :: 0 <= i < |s| ==> r[i] == (if 'A' <= s[i] <= 'Z' then (s[i] as int + 32) as char else s[i])
  {
    if s == [] then []
    else [if 'A' <= s[0] <= 'Z' then (s[0] as int + 32) as char else s[0]] + Lower(s[1..])
  }

  /** Whether an item is highlighted for the active section. */
  predicate IsActive(item: NavItem, activeSection: string)
    ensures item.isExternal && IsActive(item, activeSection) ==> |activeSection| == |item.text|
    ensures !item.isExternal && item.id.None? ==> !IsActive(item, activeSection)
  {
    if item.isExternal then Lower(item.text) == activeSection else item.id == Some(activeSection)
  }

  /** The bar highlights an item for the active section: for every section
      the scroll handler can choose, exactly one item of the bar is active,
      the one at the same position. */
  lemma {:induction false} ExactlyOneItemActive(k: nat)
    requires k < |ActiveSection.Sections|
    ensures IsActive(NavItems[k], ActiveSection.Sections[k])
    ensures forall j :: 0 <= j < |NavItems| && j != k ==> !IsActive(NavItems[j], ActiveSection.Sections[k])
  {
    forall j | 0 <= j < |NavItems|
      ensures IsActive(NavItems[j], ActiveSection.Sections[k]) <==> j == k
    {
      ItemMatchesSection(j, ActiveSection.Sections[k]);
      SectionsDistinct(j, k);
    }
  }

  /** Item `j` is active for a section exactly when the section is the
      `j`-th one. */
  lemma ItemMatchesSection(j: nat, s: string)
    requires j < |NavItems|
    ensures IsActive(NavItems[j], s) <==> s == ActiveSection.Sections[j]
  {
    LowerBlog();
  }

  lemma SectionsDistinct(j: nat, k: nat)
    requires j < |ActiveSection.Sections| && k < |ActiveSection.Sections|
    ensures ActiveSection.Sections[j] == ActiveSection.Sections[k] <==> j == k
  {
  }

  lemma LowerBlog()
    ensures Lower("Blog") == "blog"
  {
    assert Lower("g") == "g";
    assert Lower("og") == "og";
    assert Lower("log") == "log";
    assert "Blog"[1..] == "log";
  }
}

=== FILE: portfolio.dfy ===
/** The portfolio section: one card per project with image, badges and
    links, and a GitHub call to action when configured. */
module Portfolio {
  import opened Wrappers
  import opened Lists
  import FileUrl
  import Site

  datatype Project = Project(
    uid: string,
    title: string,
    description: string,
    technologies: seq<string>,
    liveUrl: string,
    githubUrl: string,
    projectLink: string,
    githubRepositoryLink: string,
    projectType: string,
    featured: bool,
    featuredImage: FileUrl.FileField)

  datatype LinkKind = ViewProject | Code | LiveDemo
  datatype Link = Link(kind: LinkKind, href: string)

  /** The place of a link among the four the card can render: View
      Project, the repository's Code link, Live Demo, then the fallback
      Code link to `github_url`. */
  function Slot(l: Link, p: Project): nat
  {
    match l.kind
    case ViewProject => 0
    case LiveDemo => 2
    case Code => if p.githubRepositoryLink != "" then 1 else 3
  }

  /** The card's links, in the order rendered: the new fields first, then
      the old ones as fallbacks. */
  function Links(p: Project): (r: seq<Link>)
    ensures forall i, j :: 0 <= i < j < |r| ==> Slot(r[i], p) < Slot(r[j], p)
    ensures Link(ViewProject, p.projectLink) in r <==> p.projectLink != ""
    ensures Link(LiveDemo, p.liveUrl) in r <==> p.projectLink == "" && p.liveUrl != ""
    ensures Link(Code, p.githubRepositoryLink) in r <==> p.githubRepositoryLink != ""
    ensures p.githubRepositoryLink == "" ==> (Link(Code, p.githubUrl) in r <==> p.githubUrl != "")
    ensures forall l :: l in r ==> l.href != ""
  {
    (if p.projectLink != "" then [Link(ViewProject, p.projectLink)] else [])
    + (if p.githubRepositoryLink != "" then [Link(Code, p.githubRepositoryLink)] else [])
    + (if p.projectLink == "" && p.liveUrl != "" then [Link(LiveDemo, p.liveUrl)] else [])
    + (if p.githubRepositoryLink == "" && p.githubUrl != "" then [Link(Code, p.githubUrl)] else [])
  }

  /** The number of links of a kind. */
  function CountKind(links: seq<Link>, k: LinkKind): nat
  {
    if links == [] then 0 else (if links[0].kind == k then 1 else 0) + CountKind(links[1..], k)
  }

  lemma {:induction false} CountKindAppend(a: seq<Link>, b: seq<Link>, k: LinkKind)
    ensures CountKind(a + b, k) == CountKind(a, k) + CountKind(b, k)
  {
    if a != [] {
      assert (a + b)[1..] == a[1..] + b;
      CountKindAppend(a[1..], b, k);
    } else {
      assert a + b == b;
    }
  }

  lemma CountKindOfOne(x: seq<Link>, k: LinkKind)
    requires |x| <= 1
    ensures CountKind(x, k) == if |x| == 1 && x[0].kind == k then 1 else 0
  {
    if |x| == 1 {
      assert x[1..] == [];
    }
  }

  /** How many links of kind `k` a card has, term by term. */
  lemma LinksCount(p: Project, k: LinkKind)
    ensures CountKind(Links(p), k)
         == (if p.projectLink != "" && k == ViewProject then 1 else 0)
          + (if p.githubRepositoryLink != "" && k == Code then 1 else 0)
          + (if p.projectLink == "" && p.liveUrl != "" && k == LiveDemo then 1 else 0)
          + (if p.githubRepositoryLink == "" && p.githubUrl != "" && k == Code then 1 else 0)
  {
    var a := if p.projectLink != "" then [Link(ViewProject, p.projectLink)] else [];
    var b := if p.githubRepositoryLink != "" then [Link(Code, p.githubRepositoryLink)] else [];
    var c := if p.projectLink == "" && p.liveUrl != "" then [Link(LiveDemo, p.liveUrl)] else [];
    var d := if p.githubRepositoryLink == "" && p.githubUrl != "" then [Link(Code, p.githubUrl)] else [];
    assert Links(p) == a + b + c + d;
    CountKindAppend(a + b + c, d, k);
    CountKindAppend(a + b, c, k);
    CountKindAppend(a, b, k);
    CountKindOfOne(a, k);
    CountKindOfOne(b, k);
    CountKindOfOne(c, k);
    CountKindOfOne(d, k);
  }

  /** A card has at most one code link and at most one primary link (View
      Project or its Live Demo fallback): the fallbacks never duplicate. */
  lemma AtMostOneOfEach(p: Project)
    ensures CountKind(Links(p), Code) <= 1
    ensures CountKind(Links(p), ViewProject) + CountKind(Links(p), LiveDemo) <= 1
  {
    LinksCount(p, Code);
    LinksCount(p, ViewProject);
    LinksCount(p, LiveDemo);
  }

  datatype Card = Card(
    imageUrl: Option<string>,
    placeholder: string,
    star: bool,
    projectType: Option<string>,
    description: Option<string>,
    badges: Option<Truncated<string>>,
    links: seq<Link>)

  function CardView(p: Project, envKey: string): (r: Card)
    ensures r.imageUrl == FileUrl.FileUrl(p.featuredImage, envKey)
    ensures r.placeholder <= p.title && |r.placeholder| == (if p.title == "" then 0 else 1)
    ensures r.star <==> p.featured
    ensures r.badges.Some? <==> |p.technologies| > 0
    ensures r.badges.Some? ==> r.badges.value == Truncate(p.technologies, 3)
    ensures r.projectType.Some? <==> p.projectType != ""
    ensures r.projectType.Some? ==> r.projectType.value == p.projectType
    ensures r.description.Some? <==> p.description != ""
    ensures r.description.Some? ==> r.description.value == p.description
    ensures r.links == Links(p)
  {
    Card(
      FileUrl.FileUrl(p.featuredImage, envKey),
      if p.title == "" then "" else p.title[..1],
      p.featured,
      if p.projectType != "" then Some(p.projectType) else None,
      if p.description != "" then Some(p.description) else None,
      if |p.technologies| > 0 then Some(Truncate(p.technologies, 3)) else None,
      Links(p))
  }

  /** Badges: at most three, with `+k more` for the rest. */
  lemma BadgeRow(p: Project, envKey: string)
    requires |p.technologies| > 0
    ensures var b := CardView(p, envKey).badges.value;
      |b.shown| <= 3 && b.shown <= p.technologies
      && (b.more.Some? <==> |p.technologies| > 3)
      && (b.more.Some? ==> b.more.value == |p.technologies| - 3)
  {
  }

  datatype Section = Section(cards: seq<Card>, emptyMessage: bool, githubCta: Option<string>)

  function View(projects: seq<Project>, c: Option<Site.SiteConfiguration>, envKey: string): (r: Section)
    ensures |r.cards| == |projects|
    ensures forall i :: 0 <= i < |projects| ==> r.cards[i] == CardView(projects[i], envKey)
    ensures r.emptyMessage <==> |projects| == 0
    ensures r.githubCta.Some? <==> Site.Config(c).githubUrl != ""
    ensures r.githubCta.Some? ==> r.githubCta.value == Site.Config(c).githubUrl
  {
    Section(seq(|projects|, i requires 0 <= i < |projects| => CardView(projects[i], envKey)),
            |projects| == 0,
            if Site.Config(c).githubUrl != "" then Some(Site.Config(c).githubUrl) else None)
  }
}

=== FILE: provisioning.dfy ===
/** The provisioning routine of `src/lib/contentstack-setup.ts`: the
    "already exists" classification of `makeRequest`, the content-type
    creation loop, the create-if-absent sample entries with their publish
    loop, and the content-type existence probe.

    The CMS is an oracle: `Cms` says how it would answer each request. The
    routine's observable behaviour is the list of requests it issues, in
    order, with the delays between them, and its boolean result. */
module Provisioning {
  import opened Wrappers
  import opened Json

  // ---------------------------------------------------------------------
  // makeRequest
  // ---------------------------------------------------------------------

  /** What axios produced for one request: a 2xx response's data, or a
      rejection carrying the response's status and data when a response
      arrived at all. */
  datatype HttpOutcome =
    | Success(data: Json)
    | Failure(status: Option<int>, body: Option<Json>)

  /** What `makeRequest` hands its caller: the response data (`null` for an
      "already exists" rejection), or the error, rethrown. */
  datatype Reply = Returned(value: Json) | Rethrown

  /** A 422 rejection whose `errors.title` is truthy: the CMS reporting that
      the thing being created exists already. */
  predicate AlreadyExists(o: HttpOutcome)
  {
    && o.Failure? && o.status == Some(422)
    && TruthyOpt(OptMember(OptMember(o.body, "errors"), "title"))
  }

  function MakeRequest(o: HttpOutcome): (r: Reply)
    ensures o.Success? ==> r == Returned(o.data)
    ensures o.Failure? ==> (r.Returned? <==> AlreadyExists(o))
    ensures o.Failure? && r.Returned? ==> r.value == JNull
  {
    if o.Success? then Returned(o.data)
    else if AlreadyExists(o) then Returned(JNull)
    else Rethrown
  }

  /** A 422 without an `errors.title`, and any other status, is rethrown. */
  lemma OnlyTitled422IsSwallowed(status: int, body: Option<Json>)
    requires status != 422 || !TruthyOpt(OptMember(OptMember(body, "errors"), "title"))
    ensures MakeRequest(Failure(Some(status), body)) == Rethrown
    ensures MakeRequest(Failure(None, body)) == Rethrown
  {
  }

  // ---------------------------------------------------------------------
  // Requests, the oracle and the fixed content
  // ---------------------------------------------------------------------

  /** The environment's credentials; the empty string is an unset variable. */
  datatype Env = Env(apiKey: string, managementToken: string)

  /** A sample entry to seed, with the slug its existence probe filters on
      (`None`: the probe lists the content type's entries unfiltered). */
  datatype SampleItem = SampleItem(contentType: string, probeSlug: Option<string>)

  /** An entry a create request returned a uid for. */
  datatype Created = Created(uid: Json, contentType: string)

  datatype Request =
    | PostContentType(uid: string)
    | ProbeEntries(item: SampleItem)
    | CreateEntry(item: SampleItem)
    | PublishEntry(entry: Created)
    | Sleep(ms: nat)

  /** How the CMS answers each kind of request. */
  datatype Cms = Cms(
    postType: string -> HttpOutcome,
    probe: SampleItem -> HttpOutcome,
    create: SampleItem -> HttpOutcome,
    publish: Created -> HttpOutcome)

  /** The content types, in the order they are posted; the same five uids
      the existence probe requires. */
  const ContentTypeUids: seq<string> :=
    ["site_configuration", "home_page", "blog_post", "work_experience", "portfolio_project"]

  /** The sample entries, in creation order. Work experiences are probed by
      company name. There is no site-configuration sample: the setup form
      creates that entry. */
  const SampleItems: seq<SampleItem> := [
    SampleItem("home_page", None),
    SampleItem("blog_post", Some("getting-started-headless-cms")),
    SampleItem("blog_post", Some("building-scalable-react-applications")),
    SampleItem("work_experience", Some("TechCorp Solutions")),
    SampleItem("work_experience", Some("StartupXYZ")),
    SampleItem("portfolio_project", Some("ecommerce-platform")),
    SampleItem("portfolio_project", Some("task-management-app"))
  ]

  // ---------------------------------------------------------------------
  // Reading a trace of requests
  // ---------------------------------------------------------------------

  /** The items probed, the items created and the entries published by a
      trace, in request order. */
  function Probed(t: seq<Request>): seq<SampleItem>
  {
    if t == [] then [] else (if t[0].ProbeEntries? then [t[0].item] else []) + Probed(t[1..])
  }

  function CreatedItems(t: seq<Request>): seq<SampleItem>
  {
    if t == [] then [] else (if t[0].CreateEntry? then [t[0].item] else []) + CreatedItems(t[1..])
  }

  function Published(t: seq<Request>): seq<Created>
  {
    if t == [] then [] else (if t[0].PublishEntry? then [t[0].entry] else []) + Published(t[1..])
  }

  lemma TraceCons(r: Request, t: seq<Request>)
    ensures Probed([r] + t) == (if r.ProbeEntries? then [r.item] else []) + Probed(t)
    ensures CreatedItems([r] + t) == (if r.CreateEntry? then [r.item] else []) + CreatedItems(t)
    ensures Published([r] + t) == (if r.PublishEntry? then [r.entry] else []) + Published(t)
  {
    assert ([r] + t)[1..] == t;
  }

  /** Reading a trace distributes over concatenation. */
  lemma {:induction false} TraceAppend(a: seq<Request>, b: seq<Request>)
    ensures Probed(a + b) == Probed(a) + Probed(b)
    ensures CreatedItems(a + b) == CreatedItems(a) + CreatedItems(b)
    ensures Published(a + b) == Published(a) + Published(b)
  {
    if a != [] {
      assert a + b == [a[0]] + (a[1..] + b);
      assert a == [a[0]] + a[1..];
      TraceCons(a[0], a[1..] + b);
      TraceCons(a[0], a[1..]);
      TraceAppend(a[1..], b);
    } else {
      assert a + b == b;
    }
  }

  // ---------------------------------------------------------------------
  // Content types
  // ---------------------------------------------------------------------

  datatype Step = Step(ok: bool, trace: seq<Request>)

  /** The content-type loop: each type is posted in order; an "already
      exists" answer counts as success, any other failure aborts the loop. */
  function PostTypes(cms: Cms, uids: seq<string>): (r: Step)
    ensures |r.trace| <= |uids|
    ensures forall k :: 0 <= k < |r.trace| ==> r.trace[k] == PostContentType(uids[k])
    ensures forall k :: 0 <= k < |r.trace| - 1 ==> MakeRequest(cms.postType(uids[k])).Returned?
    ensures r.ok <==> |r.trace| == |uids| && forall k :: 0 <= k < |uids| ==> MakeRequest(cms.postType(uids[k])).Returned?
    ensures !r.ok ==> |r.trace| > 0 && MakeRequest(cms.postType(uids[|r.trace| - 1])).Rethrown?
  {
    if uids == [] then Step(true, [])
    else if MakeRequest(cms.postType(uids[0])).Rethrown? then Step(false, [PostContentType(uids[0])])
    else
      var rest := PostTypes(cms, uids[1..]);
      Step(rest.ok, [PostContentType(uids[0])] + rest.trace)
  }

  // ---------------------------------------------------------------------
  // Sample entries
  // ---------------------------------------------------------------------

  /** `checkContentExists`: the probe's response lists at least one entry.
      A probe that fails counts as "does not exist". */
  predicate Exists(cms: Cms, item: SampleItem)
    ensures MakeRequest(cms.probe(item)).Rethrown? ==> !Exists(cms, item)
    ensures Exists(cms, item) ==> MakeRequest(cms.probe(item)).Returned?
                                  && OptMember(Some(MakeRequest(cms.probe(item)).value), "entries").Some?
  {
    match MakeRequest(cms.probe(item))
    case Rethrown => false
    case Returned(v) =>
      var entries := OptMember(Some(v), "entries");
      TruthyOpt(entries) && LengthPositive(entries.value)
  }

  /** `result?.entry?.uid` of a create response, when truthy. */
  function NewEntry(v: Json, item: SampleItem): (r: Option<Created>)
    ensures r.Some? ==> r.value.contentType == item.contentType && Truthy(r.value.uid)
  {
    var uid := OptMember(OptMember(Some(v), "entry"), "uid");
    if TruthyOpt(uid) then Some(Created(uid.value, item.contentType)) else None
  }

  /** The entry a create request for `item` yields, if it returns one. */
  function CreatedBy(cms: Cms, item: SampleItem): Option<Created>
  {
    match MakeRequest(cms.create(item))
    case Rethrown => None
    case Returned(v) => NewEntry(v, item)
  }

  /** Reference definitions: the items a probe reports absent, and the
      entries a sequence of create requests yields. */
  function Absent(cms: Cms, items: seq<SampleItem>): seq<SampleItem>
  {
    if items == [] then []
    else (if Exists(cms, items[0]) then [] else [items[0]]) + Absent(cms, items[1..])
  }

  function CreatedFrom(cms: Cms, items: seq<SampleItem>): seq<Created>
  {
    if items == [] then []
    else (if CreatedBy(cms, items[0]).Some? then [CreatedBy(cms, items[0]).value] else [])
         + CreatedFrom(cms, items[1..])
  }

  datatype Creation = Creation(ok: bool, created: seq<Created>, trace: seq<Request>)

  /** The create-if-absent part of `createSampleContent`: each item is probed;
      an absent one is created, followed by a one-second pause. A create that
      fails other than "already exists" aborts the whole routine. */
  function CreateAll(cms: Cms, items: seq<SampleItem>): (r: Creation)
    ensures |r.created| <= |items|
    ensures items != [] ==> r.trace != [] && r.trace[0] == ProbeEntries(items[0])
  {
    if items == [] then Creation(true, [], [])
    else
      var it := items[0];
      if Exists(cms, it) then
        var rest := CreateAll(cms, items[1..]);
        Creation(rest.ok, rest.created, [ProbeEntries(it)] + rest.trace)
      else
        match MakeRequest(cms.create(it))
        case Rethrown => Creation(false, [], [ProbeEntries(it), CreateEntry(it)])
        case Returned(v) =>
          var rest := CreateAll(cms, items[1..]);
          var mine := if NewEntry(v, it).Some? then [NewEntry(v, it).value] else [];
          Creation(rest.ok, mine + rest.created, [ProbeEntries(it), CreateEntry(it), Sleep(1000)] + rest.trace)
  }

  /** The requests the creation step for `it` issues before moving on. */
  function StepHead(cms: Cms, it: SampleItem): seq<Request>
  {
    if Exists(cms, it) then [ProbeEntries(it)]
    else if MakeRequest(cms.create(it)).Rethrown? then [ProbeEntries(it), CreateEntry(it)]
    else [ProbeEntries(it), CreateEntry(it), Sleep(1000)]
  }

  /** One creation step: the trace is the step's requests followed, unless
      the create failed, by the rest of the phase. */
  lemma CreateStep(cms: Cms, items: seq<SampleItem>)
    requires items != []
    ensures var c := CreateAll(cms, items); var it := items[0]; var rest := CreateAll(cms, items[1..]);
      && (c.ok ==> c.trace == StepHead(cms, it) + rest.trace)
      && (Exists(cms, it) || MakeRequest(cms.create(it)).Returned? ==>
            c.trace == StepHead(cms, it) + rest.trace && c.ok == rest.ok
            && c.created == (if Exists(cms, it) || CreatedBy(cms, it).None? then [] else [CreatedBy(cms, it).value]) + rest.created)
      && (!Exists(cms, it) && MakeRequest(cms.create(it)).Rethrown? ==> c == Creation(false, [], StepHead(cms, it)))
      && Probed(StepHead(cms, it)) == [it]
      && CreatedItems(StepHead(cms, it)) == (if Exists(cms, it) then [] else [it])
      && Published(StepHead(cms, it)) == []
  {
    TracePicks(StepHead(cms, items[0]), items[0]);
  }

  /** Items are probed in order: all of them unless a create failed. */
  lemma {:induction false} CreateAllProbes(cms: Cms, items: seq<SampleItem>)
    ensures var c := CreateAll(cms, items);
      && Probed(c.trace) <= items
      && (c.ok ==> Probed(c.trace) == items)
  {
    if items != [] {
      var c := CreateAll(cms, items);
      var rest := CreateAll(cms, items[1..]);
      CreateStep(cms, items);
      CreateAllProbes(cms, items[1..]);
      var head := StepHead(cms, items[0]);
      if Exists(cms, items[0]) || MakeRequest(cms.create(items[0])).Returned? {
        TraceAppend(head, rest.trace);
        ConsPrefix(items[0], Probed(rest.trace), items[1..]);
      } else {
        ConsPrefix(items[0], [], items[1..]);
      }
    }
  }

  lemma ConsPrefix<T>(x: T, a: seq<T>, b: seq<T>)
    requires a <= b
    ensures [x] + a <= [x] + b
    ensures a == b ==> [x] + a == [x] + b
  {
  }

  /** Exactly the probed items found absent are created, in order. */
  lemma {:induction false} CreateAllCreatesAbsent(cms: Cms, items: seq<SampleItem>)
    ensures var c := CreateAll(cms, items);
      CreatedItems(c.trace) == Absent(cms, Probed(c.trace))
  {
    if items != [] {
      var it := items[0];
      var rest := CreateAll(cms, items[1..]);
      var head := StepHead(cms, it);
      CreateStep(cms, items);
      CreateAllCreatesAbsent(cms, items[1..]);
      if Exists(cms, it) || MakeRequest(cms.create(it)).Returned? {
        TraceAppend(head, rest.trace);
        var probed := Probed(rest.trace);
        assert ([it] + probed)[1..] == probed;
      } else {
        assert Absent(cms, [it]) == [it] + Absent(cms, []);
      }
    }
  }

  /** The created list holds exactly the creates that returned a uid, in
      request order, and the phase publishes nothing. */
  lemma {:induction false} CreateAllCreatedList(cms: Cms, items: seq<SampleItem>)
    ensures var c := CreateAll(cms, items);
      && c.created == CreatedFrom(cms, CreatedItems(c.trace))
      && Published(c.trace) == []
  {
    if items != [] {
      var it := items[0];
      var rest := CreateAll(cms, items[1..]);
      var head := StepHead(cms, it);
      CreateStep(cms, items);
      CreateAllCreatedList(cms, items[1..]);
      if Exists(cms, it) || MakeRequest(cms.create(it)).Returned? {
        TraceAppend(head, rest.trace);
        var made := CreatedItems(rest.trace);
        if !Exists(cms, it) {
          assert CreatedItems(head + rest.trace) == [it] + made;
          assert ([it] + made)[0] == it && ([it] + made)[1..] == made;
        } else {
          assert CreatedItems(head + rest.trace) == made;
        }
      } else {
        assert CreatedFrom(cms, [it]) == [] + CreatedFrom(cms, []);
      }
    }
  }

  /** The phase fails only through a failed create, which is its last request. */
  lemma {:induction false} CreateAllFailure(cms: Cms, items: seq<SampleItem>)
    ensures var c := CreateAll(cms, items);
      !c.ok ==> |c.trace| > 0 && c.trace[|c.trace| - 1].CreateEntry?
                && MakeRequest(cms.create(c.trace[|c.trace| - 1].item)).Rethrown?
  {
    if items != [] {
      CreateStep(cms, items);
      CreateAllFailure(cms, items[1..]);
    }
  }

  /** What the three request shapes of one creation step contribute. */
  lemma TracePicks(head: seq<Request>, it: SampleItem)
    requires || head == [ProbeEntries(it)]
             || head == [ProbeEntries(it), CreateEntry(it)]
             || head == [ProbeEntries(it), CreateEntry(it), Sleep(1000)]
    ensures Probed(head) == [it]
    ensures CreatedItems(head) == (if |head| > 1 then [it] else [])
    ensures Published(head) == []
  {
    var tail := head[1..];
    assert head == [head[0]] + tail;
    TraceCons(head[0], tail);
    if |tail| > 0 {
      assert tail == [tail[0]] + tail[1..];
      TraceCons(tail[0], tail[1..]);
      if |tail| > 1 {
        var t2 := tail[1..];
        assert t2 == [t2[0]] + t2[1..] && t2[1..] == [];
        TraceCons(t2[0], []);
      }
    }
  }

  // ---------------------------------------------------------------------
  // Publishing
  // ---------------------------------------------------------------------

  /** The requests for publishing `created[i]`: the publish itself and, when
      it succeeded and more entries follow, a half-second pause. */
  function PublishBlock(cms: Cms, created: seq<Created>, i: nat): seq<Request>
    requires i < |created|
  {
    [PublishEntry(created[i])]
    + (if MakeRequest(cms.publish(created[i])).Returned? && i < |created| - 1 then [Sleep(500)] else [])
  }

  /** The requests for publishing the first `n` created entries. */
  function PublishTrace(cms: Cms, created: seq<Created>, n: nat): seq<Request>
    requires n <= |created|
  {
    if n == 0 then [] else PublishTrace(cms, created, n - 1) + PublishBlock(cms, created, n - 1)
  }

  /** The publish loop: every created entry is published in order, a failed
      publish is logged and the loop goes on. */
  method PublishAll(cms: Cms, created: seq<Created>) returns (trace: seq<Request>)
    ensures trace == PublishTrace(cms, created, |created|)
  {
    trace := [];
    var i := 0;
    while i < |created|
      invariant 0 <= i <= |created|
      invariant trace == PublishTrace(cms, created, i)
    {
      var reply := MakeRequest(cms.publish(created[i]));
      trace := trace + [PublishEntry(created[i])];
      if reply.Returned? {
        if i < |created| - 1 {
          trace := trace + [Sleep(500)];
        }
      }
      i := i + 1;
    }
  }

  /** Every created entry is published exactly once, in creation order,
      whatever the publish requests answer; and nothing else is requested. */
  lemma {:induction false} PublishesEveryEntry(cms: Cms, created: seq<Created>, n: nat)
    requires n <= |created|
    ensures Published(PublishTrace(cms, created, n)) == created[..n]
  {
    if n > 0 {
      PublishesEveryEntry(cms, created, n - 1);
      PublishTraceUnfold(cms, created, n);
      BlockPicks(cms, created, n - 1);
      PublishedStep(PublishTrace(cms, created, n - 1), PublishBlock(cms, created, n - 1), created[..n - 1], created[n - 1]);
      assert created[..n] == created[..n - 1] + [created[n - 1]];
    }
  }

  /** One more block of the publish phase. */
  lemma PublishTraceUnfold(cms: Cms, created: seq<Created>, n: nat)
    requires 0 < n <= |created|
    ensures PublishTrace(cms, created, n) == PublishTrace(cms, created, n - 1) + PublishBlock(cms, created, n - 1)
  {
  }

  lemma PublishedStep(prev: seq<Request>, b: seq<Request>, xs: seq<Created>, x: Created)
    requires Published(prev) == xs && Published(b) == [x]
    ensures Published(prev + b) == xs + [x]
  {
    TraceAppend(prev, b);
  }

  lemma NothingPickedStep(prev: seq<Request>, b: seq<Request>)
    requires Probed(prev) == [] && Probed(b) == []
    requires CreatedItems(prev) == [] && CreatedItems(b) == []
    ensures Probed(prev + b) == [] && CreatedItems(prev + b) == []
  {
    TraceAppend(prev, b);
  }

  /** One publish block publishes its entry and requests nothing else. */
  lemma BlockPicks(cms: Cms, created: seq<Created>, i: nat)
    requires i < |created|
    ensures Published(PublishBlock(cms, created, i)) == [created[i]]
    ensures Probed(PublishBlock(cms, created, i)) == []
    ensures CreatedItems(PublishBlock(cms, created, i)) == []
  {
    var b := PublishBlock(cms, created, i);
    var tail := b[1..];
    assert b == [b[0]] + tail;
    TraceCons(b[0], tail);
    if tail != [] {
      assert tail == [Sleep(500)] + [];
      TraceCons(Sleep(500), []);
    }
  }

  /** The publish phase ends with a publish request: there is no pause
      after the last entry. */
  lemma NoPauseAfterLast(cms: Cms, created: seq<Created>)
    requires |created| > 0
    ensures var t := PublishTrace(cms, created, |created|);
      |t| > 0 && t[|t| - 1] == PublishEntry(created[|created| - 1])
  {
  }

  /** Every pause in `t` comes right after a publish request that succeeded. */
  predicate PausesFollowSuccess(cms: Cms, t: seq<Request>)
  {
    forall k :: 0 <= k < |t| && t[k].Sleep? ==>
      k > 0 && t[k - 1].PublishEntry? && MakeRequest(cms.publish(t[k - 1].entry)).Returned?
  }

  /** Every pause of the publish phase follows immediately on a publish
      request that succeeded. */
  lemma {:induction false} PauseFollowsSuccess(cms: Cms, created: seq<Created>, n: nat)
    requires n <= |created|
    ensures PausesFollowSuccess(cms, PublishTrace(cms, created, n))
  {
    if n > 0 {
      PauseFollowsSuccess(cms, created, n - 1);
      var prev := PublishTrace(cms, created, n - 1);
      var b := PublishBlock(cms, created, n - 1);
      var t := prev + b;
      assert PublishTrace(cms, created, n) == t;
      forall k | 0 <= k < |t| && t[k].Sleep?
        ensures k > 0 && t[k - 1].PublishEntry? && MakeRequest(cms.publish(t[k - 1].entry)).Returned?
      {
        if k < |prev| {
          assert t[k] == prev[k];
          assert k > 0 && prev[k - 1].PublishEntry?;
          assert t[k - 1] == prev[k - 1];
        } else {
          assert t[k] == b[k - |prev|];
          assert b[0] == PublishEntry(created[n - 1]);
          assert k - |prev| == 1;
          assert t[k - 1] == b[0];
        }
      }
    }
  }

  // ---------------------------------------------------------------------
  // ensureContentTypesExist
  // ---------------------------------------------------------------------

  datatype Run = Run(result: bool, created: seq<Created>, trace: seq<Request>)

  /** `ensureContentTypesExist`, with `createSampleContent` inlined. Without
      credentials nothing is requested; a content type that cannot be posted
      ends the run there. */
  function EnsureContentTypesExist(env: Env, cms: Cms): (r: Run)
    ensures env.apiKey == "" || env.managementToken == "" ==> r == Run(false, [], [])
    ensures r.result <==> env.apiKey != "" && env.managementToken != ""
                          && PostTypes(cms, ContentTypeUids).ok && CreateAll(cms, SampleItems).ok
    ensures env.apiKey != "" && env.managementToken != "" && !PostTypes(cms, ContentTypeUids).ok ==>
      !r.result && r.trace == PostTypes(cms, ContentTypeUids).trace
  {
    if env.apiKey == "" || env.managementToken == "" then Run(false, [], [])
    else
      var posts := PostTypes(cms, ContentTypeUids);
      if !posts.ok then Run(false, [], posts.trace)
      else
        var c := CreateAll(cms, SampleItems);
        if !c.ok then Run(false, c.created, posts.trace + c.trace)
        else Run(true, c.created, posts.trace + c.trace + PublishTrace(cms, c.created, |c.created|))
  }

  /** A trace of content-type posts probes, creates and publishes nothing. */
  lemma {:induction false} PostsPickNothing(t: seq<Request>)
    requires forall k :: 0 <= k < |t| ==> t[k].PostContentType?
    ensures Probed(t) == [] && CreatedItems(t) == [] && Published(t) == []
  {
    if t != [] {
      assert t == [t[0]] + t[1..];
      TraceCons(t[0], t[1..]);
      PostsPickNothing(t[1..]);
    }
  }

  /** The requests of a whole run, phase by phase. */
  lemma RunPicks(env: Env, cms: Cms)
    requires env.apiKey != "" && env.managementToken != ""
    requires PostTypes(cms, ContentTypeUids).ok
    ensures var r := EnsureContentTypesExist(env, cms); var c := CreateAll(cms, SampleItems);
      && Probed(r.trace) == Probed(c.trace)
      && CreatedItems(r.trace) == CreatedItems(c.trace)
      && Published(r.trace) == (if r.result then c.created else [])
  {
    var posts := PostTypes(cms, ContentTypeUids).trace;
    var c := CreateAll(cms, SampleItems);
    PostsPickNothing(posts);
    CreateAllCreatedList(cms, SampleItems);
    if c.ok {
      var pub := PublishTrace(cms, c.created, |c.created|);
      PublishesEveryEntry(cms, c.created, |c.created|);
      PublishPicksNothingElse(cms, c.created, |c.created|);
      PhasePicks(posts, c.trace, pub);
      assert c.created[..|c.created|] == c.created;
    } else {
      PhasePicks(posts, c.trace, []);
    }
  }

  /** A run's trace is the type posts, the creation phase and the publish
      phase; the first and last contribute no probe and no create. */
  lemma PhasePicks(posts: seq<Request>, ct: seq<Request>, pub: seq<Request>)
    requires Probed(posts) == [] && CreatedItems(posts) == [] && Published(posts) == []
    requires Probed(pub) == [] && CreatedItems(pub) == []
    ensures Probed(posts + ct) == Probed(ct)
    ensures CreatedItems(posts + ct) == CreatedItems(ct)
    ensures Published(posts + ct) == Published(ct)
    ensures Probed(posts + ct + pub) == Probed(ct)
    ensures CreatedItems(posts + ct + pub) == CreatedItems(ct)
    ensures Published(posts + ct + pub) == Published(ct) + Published(pub)
  {
    TraceAppend(posts, ct);
    TraceAppend(posts + ct, pub);
  }

  /** The publish phase probes and creates nothing. */
  lemma {:induction false} PublishPicksNothingElse(cms: Cms, created: seq<Created>, n: nat)
    requires n <= |created|
    ensures Probed(PublishTrace(cms, created, n)) == []
    ensures CreatedItems(PublishTrace(cms, created, n)) == []
  {
    if n > 0 {
      PublishPicksNothingElse(cms, created, n - 1);
      PublishTraceUnfold(cms, created, n);
      BlockPicks(cms, created, n - 1);
      NothingPickedStep(PublishTrace(cms, created, n - 1), PublishBlock(cms, created, n - 1));
    }
  }

  /** Reference facts about the filters: what is absent was among the input,
      and every entry created carries the content type of the item. */
  lemma {:induction false} AbsentAmongInput(cms: Cms, items: seq<SampleItem>)
    ensures forall x :: x in Absent(cms, items) ==> x in items
  {
    if items != [] {
      AbsentAmongInput(cms, items[1..]);
    }
  }

  function ContentTypesOf(items: seq<SampleItem>): set<string>
  {
    set i | 0 <= i < |items| :: items[i].contentType
  }

  lemma {:induction false} CreatedFromTypes(cms: Cms, items: seq<SampleItem>)
    ensures forall e :: e in CreatedFrom(cms, items) ==> e.contentType in ContentTypesOf(items)
  {
    if items != [] {
      CreatedFromTypes(cms, items[1..]);
      forall e | e in CreatedFrom(cms, items)
        ensures e.contentType in ContentTypesOf(items)
      {
        if e !in CreatedFrom(cms, items[1..]) {
          assert e.contentType == items[0].contentType;
        } else {
          var k :| 0 <= k < |items[1..]| && items[1..][k].contentType == e.contentType;
          assert items[k + 1].contentType == e.contentType;
        }
      }
    }
  }

  /** Every create request of a run is for one of the sample items. */
  lemma RunCreatesOnlySamples(env: Env, cms: Cms)
    ensures var r := EnsureContentTypesExist(env, cms);
      forall x :: x in CreatedItems(r.trace) ==> x in SampleItems
  {
    var r := EnsureContentTypesExist(env, cms);
    if env.apiKey != "" && env.managementToken != "" && PostTypes(cms, ContentTypeUids).ok {
      var c := CreateAll(cms, SampleItems);
      RunPicks(env, cms);
      CreateAllProbes(cms, SampleItems);
      CreateAllCreatesAbsent(cms, SampleItems);
      var probed := Probed(c.trace);
      AbsentAmongInput(cms, probed);
      forall x | x in CreatedItems(r.trace)
        ensures x in SampleItems
      {
        var k :| 0 <= k < |probed| && probed[k] == x;
        assert SampleItems[k] == x;
      }
    } else if env.apiKey != "" && env.managementToken != "" {
      PostsPickNothing(r.trace);
    }
  }

  /** Provisioning never creates a site-configuration entry, and on success
      it publishes exactly the entries it created, in creation order. */
  lemma RunCreatesNoSiteConfiguration(env: Env, cms: Cms)
    ensures var r := EnsureContentTypesExist(env, cms);
      && (forall x :: x in CreatedItems(r.trace) ==> x.contentType != "site_configuration")
      && (forall e :: e in r.created ==> e.contentType != "site_configuration")
      && (r.result ==> Published(r.trace) == r.created)
  {
    var r := EnsureContentTypesExist(env, cms);
    RunCreatesOnlySamples(env, cms);
    RunCreatedTypes(env, cms);
    TypesOfSubset(CreatedItems(r.trace), SampleItems);
    NoSiteConfigurationSample();
    if env.apiKey != "" && env.managementToken != "" && PostTypes(cms, ContentTypeUids).ok {
      RunPicks(env, cms);
    }
  }

  /** Every entry a run created has the type of one of its create requests. */
  lemma RunCreatedTypes(env: Env, cms: Cms)
    ensures var r := EnsureContentTypesExist(env, cms);
      forall e :: e in r.created ==> e.contentType in ContentTypesOf(CreatedItems(r.trace))
  {
    if env.apiKey != "" && env.managementToken != "" && PostTypes(cms, ContentTypeUids).ok {
      var c := CreateAll(cms, SampleItems);
      RunPicks(env, cms);
      CreateAllCreatedList(cms, SampleItems);
      CreatedFromTypes(cms, CreatedItems(c.trace));
    }
  }

  lemma TypesOfSubset(a: seq<SampleItem>, b: seq<SampleItem>)
    requires forall x :: x in a ==> x in b
    ensures ContentTypesOf(a) <= ContentTypesOf(b)
  {
    forall t | t in ContentTypesOf(a)
      ensures t in ContentTypesOf(b)
    {
      var k :| 0 <= k < |a| && a[k].contentType == t;
      assert a[k] in b;
      var j :| 0 <= j < |b| && b[j] == a[k];
    }
  }

  /** None of the sample items is a site configuration. */
  lemma NoSiteConfigurationSample()
    ensures forall x :: x in SampleItems ==> x.contentType != "site_configuration"
    ensures "site_configuration" !in ContentTypesOf(SampleItems)
  {
  }

  /** Provisioning twice creates nothing the second time: when every type
      post answers success or "already exists" and every probe finds its
      entry, the run succeeds and issues no create and no publish. */
  lemma SecondRunCreatesNothing(env: Env, cms: Cms)
    requires env.apiKey != "" && env.managementToken != ""
    requires forall t :: t in ContentTypeUids ==> MakeRequest(cms.postType(t)).Returned?
    requires forall x :: x in SampleItems ==> Exists(cms, x)
    ensures var r := EnsureContentTypesExist(env, cms);
      r.result && r.created == [] && CreatedItems(r.trace) == [] && Published(r.trace) == []
  {
    assert PostTypes(cms, ContentTypeUids).ok by {
      forall k | 0 <= k < |ContentTypeUids|
        ensures MakeRequest(cms.postType(ContentTypeUids[k])).Returned?
      {
        assert ContentTypeUids[k] in ContentTypeUids;
      }
    }
    AllExistCreatesNothing(cms, SampleItems);
    RunPicks(env, cms);
  }

  lemma {:induction false} AllExistCreatesNothing(cms: Cms, items: seq<SampleItem>)
    requires forall x :: x in items ==> Exists(cms, x)
    ensures CreateAll(cms, items).ok && CreateAll(cms, items).created == []
    ensures CreatedItems(CreateAll(cms, items).trace) == []
  {
    if items != [] {
      AllExistCreatesNothing(cms, items[1..]);
      CreateStep(cms, items);
      TraceAppend([ProbeEntries(items[0])], CreateAll(cms, items[1..]).trace);
    }
  }

  // ---------------------------------------------------------------------
  // checkContentTypesExist
  // ---------------------------------------------------------------------

  /** `response.data.content_types?.map(ct => ct.uid) || []` as the list of
      the types' `uid` values (`None`: a type without one), or `None` when
      evaluating it throws: `data` is `null`, a listed type is `null`, or
      `content_types` is present but not an array. */
  function ListedUids(data: Json): Option<seq<Option<Json>>>
  {
    if data.JNull? then None
    else
      var ct := Member(data, "content_types");
      if ct.None? || ct.value.JNull? then Some([])
      else if !ct.value.JArr? then None
      else if exists k :: 0 <= k < |ct.value.items| && ct.value.items[k].JNull? then None
      else Some(seq(|ct.value.items|, k requires 0 <= k < |ct.value.items| => Member(ct.value.items[k], "uid")))
  }

  /** `uids.includes(x)`. */
  function Includes(uids: seq<Option<Json>>, x: Json): (r: bool)
    ensures r <==> Some(x) in uids
  {
    if uids == [] then false else uids[0] == Some(x) || Includes(uids[1..], x)
  }

  /** `required.every(type => uids.includes(type))`. */
  function Every(required: seq<string>, uids: seq<Option<Json>>): (r: bool)
    ensures r <==> forall t :: t in required ==> Some(JStr(t)) in uids
  {
    if required == [] then true
    else Includes(uids, JStr(required[0])) && Every(required[1..], uids)
  }

  /** `checkContentTypesExist`: true exactly when the API key is set, the
      listing succeeded and all five required uids are among those listed;
      every failure reads as false. */
  function CheckContentTypesExist(env: Env, reply: HttpOutcome): (r: bool)
    ensures r <==> && env.apiKey != "" && reply.Success?
                   && ListedUids(reply.data).Some?
                   && forall t :: t in ContentTypeUids ==> Some(JStr(t)) in ListedUids(reply.data).value
  {
    if env.apiKey == "" then false
    else if reply.Failure? then false
    else
      var uids := ListedUids(reply.data);
      uids.Some? && Every(ContentTypeUids, uids.value)
  }
}

=== FILE: setup_guard.dfy ===
/** The setup gate in front of the home page: it sends the visitor to
    `/setup` unless a site configuration exists or setup finished within the
    last 30 seconds, and it shows a loading screen until it has decided. The
    stored flag and the clock are inputs. */
module SetupGuard {
  import opened Wrappers
  import opened Text

  /** How long, in milliseconds, a completed setup counts as recent. */
  const RecentWindow := 30000

  /** `setupCompleted && (now - parseInt(setupCompleted)) < 30000`: an absent
      or empty flag and a flag that does not parse are not recent. */
  predicate RecentlyCompleted(flag: Option<string>, now: int)
  {
    flag.Some? && flag.value != "" && ParseInt(flag.value).Some?
    && now - ParseInt(flag.value).value < RecentWindow
  }

  /** What the component holds: the loading state, whether it navigated to
      `/setup`, and the `setup-completed` entry of local storage. */
  datatype Guard = Guard(isChecking: bool, redirected: bool, flag: Option<string>)

  function Mount(flag: Option<string>): Guard
  {
    Guard(true, false, flag)
  }

  /** The effect that runs once mounted and again when `siteConfigExists`
      changes. */
  function Decide(g: Guard, siteConfigExists: bool, now: int): (r: Guard)
    ensures r.redirected <==> g.redirected || (!siteConfigExists && !RecentlyCompleted(g.flag, now))
    ensures !siteConfigExists && !RecentlyCompleted(g.flag, now) ==> r.isChecking == g.isChecking && r.flag == g.flag
    ensures siteConfigExists || RecentlyCompleted(g.flag, now) ==> !r.isChecking
    ensures RecentlyCompleted(g.flag, now) ==> r.flag == None
    ensures !RecentlyCompleted(g.flag, now) ==> r.flag == g.flag
  {
    var recent := RecentlyCompleted(g.flag, now);
    if !siteConfigExists && !recent then g.(redirected := true)
    else Guard(false, g.redirected, if recent then None else g.flag)
  }

  /** The page content is rendered only once the check is over. */
  predicate ShowsChildren(g: Guard)
  {
    !g.isChecking
  }

  /** After the first decision, the page either redirected and keeps its
      loading screen, or shows its content: exactly one of the two. */
  lemma RedirectOrContent(flag: Option<string>, siteConfigExists: bool, now: int)
    ensures var g := Decide(Mount(flag), siteConfigExists, now);
      g.redirected != ShowsChildren(g)
  {
  }

  /** A flag holding the decimal time stamp `t` is recent exactly when less
      than 30 seconds have passed since `t`. */
  lemma StampedFlagIsRecent(t: int, now: int)
    ensures RecentlyCompleted(Some(IntToString(t)), now) <==> now - t < RecentWindow
  {
    ParseIntOfIntToString(t);
    assert |NatToString(if t < 0 then -t else t)| > 0;
  }

  /** The recent-completion grace is used up by the first decision: a later
      run of the effect with the configuration still missing redirects. */
  lemma GraceIsSpentOnce(flag: Option<string>, now: int, later: int)
    ensures var g := Decide(Mount(flag), false, now);
      Decide(g, false, later).redirected
  {
  }

  /** Storage is only ever written by clearing a recent flag. */
  lemma FlagKeptUnlessRecent(g: Guard, siteConfigExists: bool, now: int)
    ensures Decide(g, siteConfigExists, now).flag != g.flag ==>
      RecentlyCompleted(g.flag, now) && Decide(g, siteConfigExists, now).flag == None
  {
  }
}

=== FILE: setup_route.dfy ===
/** The `POST /api/setup` handler: it validates the body, reads the existing
    site-configuration entry through the management API and writes the
    submitted fields into it. The request body, the environment and the
    management API's answers are inputs; the requests it issues are
    recorded in order. */
module SetupRoute {
  import opened Wrappers
  import opened Json

  /** The server's credentials; `""` is unset. */
  datatype Env = Env(apiKey: string, managementToken: string)

  /** What an axios call produced: a thrown error or the response data. */
  datatype Reply = Threw | Data(data: Json)

  datatype Request =
    | GetEntries
    | PutEntry(uid: Option<Json>, payload: Json)

  datatype Response = Response(status: int, body: Json)

  const FailedBody := JObj(map["error" := JStr("Failed to update configuration")])
  const Failed := Response(500, FailedBody)
  const MissingFields := Response(400, JObj(map["error" := JStr("Owner name and site name are required")]))
  const ConfigError := Response(500, JObj(map["error" := JStr("Server configuration error")]))
  const NotFound := Response(404, JObj(map["error" := JStr("Site configuration not found")]))
  const Success := Response(200, JObj(map["success" := JBool(true)]))

  /** The two 500 answers differ in their message. */
  lemma ResponsesDistinct()
    ensures Failed != ConfigError
  {
    assert Failed.body.fields["error"].s[0] != ConfigError.body.fields["error"].s[0];
  }

  /** `v || ''`: the value when truthy, else the empty string. */
  function OrEmpty(v: Option<Json>): (r: Json)
    ensures TruthyOpt(v) ==> r == v.value
    ensures !TruthyOpt(v) ==> r == JStr("")
  {
    if TruthyOpt(v) then v.value else JStr("")
  }

  /** The update written to the entry. */
  function Payload(body: Json): (r: Json)
    requires TruthyOpt(Member(body, "ownerName")) && TruthyOpt(Member(body, "siteName"))
    ensures r.JObj? && r.fields.Keys == {"entry"}
    ensures var e := r.fields["entry"];
      e.JObj?
      && e.fields.Keys == {"title", "site_name", "site_subtitle", "owner_name", "owner_email", "bio", "setup_completed"}
      && e.fields["title"] == JStr("Site Configuration")
      && e.fields["setup_completed"] == JBool(true)
      && e.fields["owner_name"] == Member(body, "ownerName").value
      && e.fields["site_name"] == Member(body, "siteName").value
      && e.fields["site_subtitle"] == OrEmpty(Member(body, "siteSubtitle"))
      && e.fields["owner_email"] == OrEmpty(Member(body, "ownerEmail"))
      && e.fields["bio"] == OrEmpty(Member(body, "bio"))
  {
    JObj(map["entry" := JObj(map[
      "title" := JStr("Site Configuration"),
      "site_name" := Member(body, "siteName").value,
      "site_subtitle" := OrEmpty(Member(body, "siteSubtitle")),
      "owner_name" := Member(body, "ownerName").value,
      "owner_email" := OrEmpty(Member(body, "ownerEmail")),
      "bio" := OrEmpty(Member(body, "bio")),
      "setup_completed" := JBool(true)])])
  }

  /** Both required fields are present and truthy. */
  predicate NamesGiven(body: Json)
  {
    TruthyOpt(Member(body, "ownerName")) && TruthyOpt(Member(body, "siteName"))
  }

  /** The request got past validation: a non-null body naming both
      required fields, and both credentials configured. */
  predicate Validated(body: Option<Json>, env: Env)
  {
    body.Some? && body.value != JNull && NamesGiven(body.value) && env.apiKey != "" && env.managementToken != ""
  }

  /** `!entries || entries.length === 0`: no usable entry list. Among the
      truthy values only the empty array has length zero. */
  predicate NoEntries(entries: Option<Json>)
  {
    !TruthyOpt(entries) || entries.value == JArr([])
  }

  /** `entries[0].uid` throws: the first entry is `undefined` or `null`. */
  predicate FirstEntryMissing(entries: Json)
  {
    Index0(entries).None? || Index0(entries).value == JNull
  }

  /** The outcome and the requests made. */
  datatype Outcome = Outcome(response: Response, trace: seq<Request>)

  /** `POST`. `body` is `None` when the request body is not valid JSON; a
      JSON `null` body cannot be destructured and throws as well. */
  function Post(body: Option<Json>, env: Env, get: Reply, put: Reply): (r: Outcome)
    ensures body.None? || body == Some(JNull) ==> r == Outcome(Failed, [])
    ensures body.Some? && body.value != JNull && !NamesGiven(body.value) ==> r == Outcome(MissingFields, [])
    ensures body.Some? && body.value != JNull && NamesGiven(body.value) && (env.apiKey == "" || env.managementToken == "") ==>
      r == Outcome(ConfigError, [])
    ensures r.trace != [] ==> r.trace[0] == GetEntries && body.Some? && NamesGiven(body.value)
                              && env.apiKey != "" && env.managementToken != ""
    ensures |r.trace| <= 2
    ensures |r.trace| == 2 ==> r.trace[1].PutEntry? && r.trace[1].payload == Payload(body.value)
    ensures |r.trace| == 2 ==>
      get.Data? && Member(get.data, "entries").Some? && Index0(Member(get.data, "entries").value).Some?
      && r.trace[1].uid == Member(Index0(Member(get.data, "entries").value).value, "uid")
    ensures r.response == Success <==> |r.trace| == 2 && put.Data?
    ensures r.response.status == 404 ==> r.trace == [GetEntries]
    ensures r.response in {Failed, MissingFields, ConfigError, NotFound, Success}
    ensures r.response == NotFound <==>
      Validated(body, env) && get.Data? && get.data != JNull && NoEntries(Member(get.data, "entries"))
    ensures r.response == Failed <==>
      || body.None? || body == Some(JNull)
      || (Validated(body, env)
          && (|| get.Threw? || get.data == JNull
              || (!NoEntries(Member(get.data, "entries"))
                  && (FirstEntryMissing(Member(get.data, "entries").value) || put.Threw?))))
  {
    ResponsesDistinct();
    if body.None? || body.value.JNull? then Outcome(Failed, [])
    else if !NamesGiven(body.value) then Outcome(MissingFields, [])
    else if env.apiKey == "" || env.managementToken == "" then Outcome(ConfigError, [])
    else
      match get
      case Threw => Outcome(Failed, [GetEntries])
      case Data(data) =>
        if data.JNull? then Outcome(Failed, [GetEntries])
        else
          var entries := Member(data, "entries");
          if NoEntries(entries) then Outcome(NotFound, [GetEntries])
          else
            var first := Index0(entries.value);
            if FirstEntryMissing(entries.value) then Outcome(Failed, [GetEntries])
            else
              var uid := Member(first.value, "uid");
              var trace := [GetEntries, PutEntry(uid, Payload(body.value))];
              match put
              case Threw => Outcome(Failed, trace)
              case Data(_) => Outcome(Success, trace)
  }

  /** The entry updated is the first one listed: for a non-empty list of
      entry objects, the PUT names the uid of the first. */
  lemma UpdatesFirstEntry(body: Json, env: Env, entries: seq<Json>, uid: Json, put: Reply)
    requires body != JNull && NamesGiven(body) && env.apiKey != "" && env.managementToken != ""
    requires |entries| > 0 && entries[0].JObj? && "uid" in entries[0].fields && entries[0].fields["uid"] == uid
    ensures var get := Data(JObj(map["entries" := JArr(entries)]));
      Post(Some(body), env, get, put).trace == [GetEntries, PutEntry(Some(uid), Payload(body))]
  {
    var data := JObj(map["entries" := JArr(entries)]);
    assert Member(data, "entries") == Some(JArr(entries));
    assert JArr(entries) != JArr([]);
  }

  /** No existing entry (an empty list, or no list at all) gives 404 after
      the one read, and nothing is written. */
  lemma NoEntryIsNotFound(body: Json, env: Env, put: Reply)
    requires body != JNull && NamesGiven(body) && env.apiKey != "" && env.managementToken != ""
    ensures Post(Some(body), env, Data(JObj(map["entries" := JArr([])])), put) == Outcome(NotFound, [GetEntries])
    ensures Post(Some(body), env, Data(JObj(map[])), put) == Outcome(NotFound, [GetEntries])
  {
    assert Member(JObj(map["entries" := JArr([])]), "entries") == Some(JArr([]));
  }
}

=== FILE: site_config.dfy ===
/** The CMS records the page components render: the site configuration and
    the home page content. An absent or empty string field is `""` and an
    absent number is `0`; JavaScript treats each pair alike (both falsy), and
    the components never tell them apart. A null record is read as the empty
    record, since `siteConfig?.field` is then `undefined`. */
module Site {
  import opened Wrappers
  import FileUrl

  datatype SiteConfiguration = SiteConfiguration(
    siteName: string,
    siteSubtitle: string,
    ownerName: string,
    ownerEmail: string,
    bio: string,
    avatarPhoto: FileUrl.FileField,
    yearsExperience: int,
    workLocation: string,
    projectsCompleted: int,
    technologiesCount: int,
    timeZone: string,
    githubUrl: string,
    linkedinUrl: string)

  datatype HomePageContent = HomePageContent(
    title: string,
    heroHeadline: string,
    heroSubtext: string,
    aboutSection: string,
    skills: seq<string>,
    contactEmail: string)

  const EmptyConfig := SiteConfiguration("", "", "", "", "", FileUrl.NoFile, 0, "", 0, 0, "", "", "")

  const EmptyContent := HomePageContent("", "", "", "", [], "")

  /** The record a component reads through `siteConfig?.`. */
  function Config(c: Option<SiteConfiguration>): SiteConfiguration
  {
    c.GetOr(EmptyConfig)
  }

  /** The record a component reads through `content?.`. */
  function Content(c: Option<HomePageContent>): HomePageContent
  {
    c.GetOr(EmptyContent)
  }

  /** `a || b` on strings: the first when it is non-empty. */
  function Or(a: string, b: string): (r: string)
    ensures a != "" ==> r == a
    ensures a == "" ==> r == b
    ensures b != "" ==> r != ""
  {
    if a != "" then a else b
  }

  /** The contact address shown by the about and contact sections: the
      owner's e-mail, else the home page's contact e-mail, else the default. */
  function ContactEmail(c: Option<SiteConfiguration>, content: Option<HomePageContent>): (r: string)
    ensures r != ""
    ensures Config(c).ownerEmail != "" ==> r == Config(c).ownerEmail
    ensures Config(c).ownerEmail == "" && Content(content).contactEmail != "" ==> r == Content(content).contactEmail
    ensures Config(c).ownerEmail == "" && Content(content).contactEmail == "" ==> r == "hello@example.com"
  {
    Or(Or(Config(c).ownerEmail, Content(content).contactEmail), "hello@example.com")
  }
}

=== FILE: sorting.dfy ===
/** `Array.prototype.sort` with a comparator of the form
    `(a, b) => key(b) - key(a)`: a stable sort into non-increasing key
    order. It is modelled as an insertion sort that keeps an element ahead
    of later elements with the same key. */
module Sorting {

  /** Every earlier element has a key at least as large as every later one. */
  predicate NonIncreasing<T>(s: seq<T>, key: T -> int)
  {
    forall i, j :: 0 <= i < j < |s| ==> key(s[i]) >= key(s[j])
  }

  /** The elements of `s` with key `v`, in their order in `s`. */
  function WithKey<T>(s: seq<T>, key: T -> int, v: int): (r: seq<T>)
    ensures |r| <= |s|
    ensures forall x :: x in r ==> x in s && key(x) == v
  {
    if s == [] then []
    else if key(s[0]) == v then [s[0]] + WithKey(s[1..], key, v)
    else WithKey(s[1..], key, v)
  }

  /** Puts `x` in front of the first element whose key is not larger than
      its own, so `x` stays ahead of the elements it ties with. */
  function Insert<T>(x: T, s: seq<T>, key: T -> int): (r: seq<T>)
    ensures multiset(r) == multiset(s) + multiset{x}
  {
    if s == [] || key(s[0]) <= key(x) then [x] + s
    else
      assert s == [s[0]] + s[1..];
      [s[0]] + Insert(x, s[1..], key)
  }

  /** Inserting into a sorted sequence keeps it sorted. */
  lemma {:induction false} InsertKeepsOrder<T>(x: T, s: seq<T>, key: T -> int)
    requires NonIncreasing(s, key)
    ensures NonIncreasing(Insert(x, s, key), key)
  {
    if s != [] && key(s[0]) > key(x) {
      TailNonIncreasing(s, key);
      InsertKeepsOrder(x, s[1..], key);
      InsertBelowHead(x, s, key);
      ConsNonIncreasing(s[0], Insert(x, s[1..], key), key);
    }
  }

  lemma TailNonIncreasing<T>(s: seq<T>, key: T -> int)
    requires s != [] && NonIncreasing(s, key)
    ensures NonIncreasing(s[1..], key)
  {
    var tail := s[1..];
    forall i, j | 0 <= i < j < |tail|
      ensures key(tail[i]) >= key(tail[j])
    {
      assert tail[i] == s[i + 1] && tail[j] == s[j + 1];
    }
  }

  /** Every element of the insertion into the tail has a key no larger
      than the head's, when the head outranks `x`. */
  lemma InsertBelowHead<T>(x: T, s: seq<T>, key: T -> int)
    requires s != [] && NonIncreasing(s, key) && key(s[0]) > key(x)
    ensures forall y :: y in Insert(x, s[1..], key) ==> key(s[0]) >= key(y)
  {
    var tail := s[1..];
    var rest := Insert(x, tail, key);
    forall y | y in rest
      ensures key(s[0]) >= key(y)
    {
      assert y in multiset(rest);
      if y != x {
        assert y in multiset(tail);
        var j :| 0 <= j < |tail| && tail[j] == y;
        assert s[j + 1] == y;
      }
    }
  }

  lemma ConsNonIncreasing<T>(h: T, rest: seq<T>, key: T -> int)
    requires NonIncreasing(rest, key)
    requires forall y :: y in rest ==> key(h) >= key(y)
    ensures NonIncreasing([h] + rest, key)
  {
    var r := [h] + rest;
    forall i, j | 0 <= i < j < |r|
      ensures key(r[i]) >= key(r[j])
    {
      if i == 0 {
        assert r[j] == rest[j - 1];
        assert r[j] in rest;
      } else {
        assert r[i] == rest[i - 1] && r[j] == rest[j - 1];
      }
    }
  }

  /** The stable sort into non-increasing key order. */
  function SortDesc<T>(s: seq<T>, key: T -> int): (r: seq<T>)
    ensures multiset(r) == multiset(s)
    ensures NonIncreasing(r, key)
  {
    if s == [] then []
    else
      assert s == [s[0]] + s[1..];
      InsertKeepsOrder(s[0], SortDesc(s[1..], key), key);
      Insert(s[0], SortDesc(s[1..], key), key)
  }

  /** Inserting `x` adds it in front of the elements it ties with and
      leaves every other key group as it was. */
  lemma {:induction false} InsertWithKey<T>(x: T, s: seq<T>, key: T -> int, v: int)
    ensures WithKey(Insert(x, s, key), key, v)
         == if key(x) == v then [x] + WithKey(s, key, v) else WithKey(s, key, v)
  {
    if s == [] || key(s[0]) <= key(x) {
      assert Insert(x, s, key) == [x] + s;
      assert ([x] + s)[1..] == s;
    } else {
      InsertWithKey(x, s[1..], key, v);
      var r := Insert(x, s, key);
      assert r == [s[0]] + Insert(x, s[1..], key);
      assert r[1..] == Insert(x, s[1..], key);
      if key(x) == v {
        assert key(s[0]) != v;
      }
    }
  }

  /** Stability: the elements sharing a key keep their relative order. */
  lemma {:induction false} SortDescIsStable<T>(s: seq<T>, key: T -> int, v: int)
    ensures WithKey(SortDesc(s, key), key, v) == WithKey(s, key, v)
  {
    if s != [] {
      SortDescIsStable(s[1..], key, v);
      InsertWithKey(s[0], SortDesc(s[1..], key), key, v);
    }
  }

  /** A sequence already in non-increasing order is returned unchanged, so
      sorting the same array again gives the same result. */
  lemma {:induction false} SortDescOfSorted<T>(s: seq<T>, key: T -> int)
    requires NonIncreasing(s, key)
    ensures SortDesc(s, key) == s
  {
    if s != [] {
      TailNonIncreasing(s, key);
      SortDescOfSorted(s[1..], key);
      if |s| > 1 {
        assert key(s[1]) <= key(s[0]);
      }
      assert [s[0]] + s[1..] == s;
    }
  }

  /** Sorting twice is sorting once. */
  lemma SortDescIdempotent<T>(s: seq<T>, key: T -> int)
    ensures SortDesc(SortDesc(s, key), key) == SortDesc(s, key)
  {
    SortDescOfSorted(SortDesc(s, key), key);
  }
}

=== FILE: text.dfy ===
/** The string operations of JavaScript the site's code calls: `startsWith`,
    `trim`, `parseInt` without a radix, and the decimal rendering of an
    integer inside a template literal. */
module Text {
  import opened Wrappers

  /** `s.startsWith(prefix)`. */
  predicate StartsWith(s: string, prefix: string)
  {
    prefix <= s
  }

  /** The characters JavaScript's `trim` and `parseInt` skip: white space
      (including the Unicode space separators) and line terminators. */
  predicate IsWhitespace(c: char)
  {
    || c == ' ' || c == '\t' || c == '\n' || c == '\r'
    || c == '\U{000B}' || c == '\U{000C}' || c == '\U{00A0}' || c == '\U{1680}'
    || ('\U{2000}' <= c <= '\U{200A}')
    || c == '\U{2028}' || c == '\U{2029}' || c == '\U{202F}' || c == '\U{205F}'
    || c == '\U{3000}' || c == '\U{FEFF}'
  }

  predicate AllWhitespace(s: string)
  {
    forall i :: 0 <= i < |s| ==> IsWhitespace(s[i])
  }

  /** The number of white-space characters `s` starts with. */
  function LeadingWhitespace(s: string): (k: nat)
    ensures k <= |s|
    ensures forall i :: 0 <= i < k ==> IsWhitespace(s[i])
    ensures k < |s| ==> !IsWhitespace(s[k])
  {
    if |s| > 0 && IsWhitespace(s[0]) then 1 + LeadingWhitespace(s[1..]) else 0
  }

  /** The number of white-space characters `s` ends with. */
  function TrailingWhitespace(s: string): (k: nat)
    ensures k <= |s|
    ensures forall i :: |s| - k <= i < |s| ==> IsWhitespace(s[i])
    ensures k < |s| ==> !IsWhitespace(s[|s| - 1 - k])
  {
    if |s| > 0 && IsWhitespace(s[|s| - 1]) then 1 + TrailingWhitespace(s[..|s| - 1]) else 0
  }

  /** `s` with its leading white space removed (what `parseInt` skips). */
  function TrimStart(s: string): string
  {
    s[LeadingWhitespace(s)..]
  }

  /** `s.trim()`. */
  function Trim(s: string): (r: string)
    ensures |r| <= |s|
    ensures r != [] ==> !IsWhitespace(r[0]) && !IsWhitespace(r[|r| - 1])
    ensures AllWhitespace(s) ==> r == []
  {
    var e := s[..|s| - TrailingWhitespace(s)];
    e[LeadingWhitespace(e)..]
  }

  /** `s.trim()` is empty exactly when every character of `s` is white
      space: the form's "please fill in" check rejects blank input and
      nothing else. */
  lemma TrimEmptyIffBlank(s: string)
    ensures Trim(s) == "" <==> AllWhitespace(s)
  {
    var t := TrailingWhitespace(s);
    var e := s[..|s| - t];
    var l := LeadingWhitespace(e);
    if Trim(s) == "" {
      assert l == |e|;
      forall i | 0 <= i < |s|
        ensures IsWhitespace(s[i])
      {
        if i < |e| {
          assert e[i] == s[i];
        }
      }
    } else {
      assert l < |e| && !IsWhitespace(e[l]);
      assert e[l] == s[l];
    }
  }

  /** The value of the decimal digit `c`, or of the hexadecimal digit `c`
      when `base` is 16. */
  function DigitValue(c: char, base: nat): Option<nat>
  {
    if '0' <= c <= '9' then Some(c as nat - '0' as nat)
    else if base == 16 && 'a' <= c <= 'f' then Some(c as nat - 'a' as nat + 10)
    else if base == 16 && 'A' <= c <= 'F' then Some(c as nat - 'A' as nat + 10)
    else None
  }

  predicate AllDigits(s: string, base: nat)
  {
    forall i :: 0 <= i < |s| ==> DigitValue(s[i], base).Some?
  }

  /** The longest prefix of `s` made of digits in `base`. */
  function DigitPrefix(s: string, base: nat): (r: string)
    ensures r <= s && AllDigits(r, base)
    ensures |r| < |s| ==> DigitValue(s[|r|], base).None?
  {
    if |s| > 0 && DigitValue(s[0], base).Some? then [s[0]] + DigitPrefix(s[1..], base) else []
  }

  /** The number the digit string `s` denotes in `base`, most significant digit first. */
  function DigitsValue(s: string, base: nat): nat
    requires AllDigits(s, base)
  {
    if s == [] then 0
    else DigitsValue(s[..|s| - 1], base) * base + DigitValue(s[|s| - 1], base).value
  }

  /** JavaScript's `parseInt(s)` with no radix: leading white space is skipped,
      an optional sign is read, a `0x`/`0X` prefix selects base 16, and the
      longest run of digits that follows is the value. No digits at all gives
      `NaN`, modelled as `None`. */
  function ParseInt(s: string): (r: Option<int>)
    ensures AllWhitespace(s) ==> r.None?
    ensures |s| > 0 && '1' <= s[0] <= '9' ==> r.Some? && r.value >= 0
  {
    var t := TrimStart(s);
    var negative := |t| > 0 && t[0] == '-';
    var u := if |t| > 0 && (t[0] == '-' || t[0] == '+') then t[1..] else t;
    var hex := |u| >= 2 && u[0] == '0' && (u[1] == 'x' || u[1] == 'X');
    var base := if hex then 16 else 10;
    var digits := DigitPrefix(if hex then u[2..] else u, base);
    if digits == [] then None
    else
      var m: int := DigitsValue(digits, base);
      Some(if negative then -m else m)
  }

  /** The decimal digit for `d`. */
  function DigitChar(d: nat): char
    requires d < 10
  {
    ('0' as int + d) as char
  }

  /** The decimal rendering of a natural number, without leading zeros. */
  function NatToString(n: nat): (r: string)
    ensures |r| > 0 && AllDigits(r, 10)
    ensures r[0] == '0' ==> r == "0"
  {
    if n < 10 then [DigitChar(n)] else NatToString(n / 10) + [DigitChar(n % 10)]
  }

  /** The rendering of an integer in a template literal (`${n}`). */
  function IntToString(n: int): string
  {
    if n < 0 then "-" + NatToString(-n) else NatToString(n)
  }

  lemma {:induction false} NatToStringValue(n: nat)
    ensures DigitsValue(NatToString(n), 10) == n
  {
    var r := NatToString(n);
    if n >= 10 {
      NatToStringValue(n / 10);
      assert r[..|r| - 1] == NatToString(n / 10);
    }
  }

  lemma DigitPrefixOfDigits(s: string, base: nat)
    requires AllDigits(s, base)
    ensures DigitPrefix(s, base) == s
  {
    if |s| > 0 {
      DigitPrefixOfDigits(s[1..], base);
    }
  }

  /** A rendering that starts with a digit is read as decimal digits to its end. */
  lemma ParseIntOfNatString(m: nat)
    ensures ParseInt(NatToString(m)) == Some(m)
  {
    var d := NatToString(m);
    NatToStringValue(m);
    DigitPrefixOfDigits(d, 10);
    assert DigitValue(d[0], 10).Some?;
    assert LeadingWhitespace(d) == 0;
    assert TrimStart(d) == d;
    assert d[0] != '-' && d[0] != '+';
    assert !(|d| >= 2 && d[0] == '0');
  }

  lemma ParseIntOfNegativeString(m: nat)
    requires m > 0
    ensures ParseInt("-" + NatToString(m)) == Some(-(m as int))
  {
    var d := NatToString(m);
    var s := "-" + d;
    NatToStringValue(m);
    DigitPrefixOfDigits(d, 10);
    assert LeadingWhitespace(s) == 0;
    assert TrimStart(s) == s;
    assert s[1..] == d;
  }

  /** `parseInt` reads back every integer the site renders: the decimal
      rendering of `n` parses to `n`. */
  lemma ParseIntOfIntToString(n: int)
    ensures ParseInt(IntToString(n)) == Some(n)
  {
    if n < 0 {
      ParseIntOfNegativeString(-n);
    } else {
      ParseIntOfNatString(n);
    }
  }
}

=== FILE: welcome_setup.dfy ===
/** The first-run setup form: field edits, photo selection with its type and
    size checks, and submission with its validation and outcome. The file
    reader and the `onComplete` callback are inputs: the preview arrives as
    a separate event, and the callback's success or failure is a parameter. */
module WelcomeSetup {
  import opened Wrappers
  import opened Text

  datatype FormData = FormData(ownerName: string, ownerEmail: string, siteName: string, siteSubtitle: string, bio: string)

  /** A chosen file: its MIME type and size in bytes. */
  datatype Photo = Photo(mimeType: string, size: nat)

  datatype Form = Form(
    data: FormData,
    photo: Option<Photo>,
    preview: Option<string>,
    isSubmitting: bool,
    error: Option<string>,
    isSuccess: bool,
    status: string)

  const Initial := Form(FormData("", "", "", "", ""), None, None, false, None, false, "")

  /** The largest accepted photo: 5 MiB. */
  const MaxPhotoBytes := 5 * 1024 * 1024

  const InvalidImageError := "Please select a valid image file"
  const TooLargeError := "Image file must be less than 5MB"
  const MissingFieldsError := "Please fill in your name and site name"
  const SetupFailedError := "Setup failed. Please try again."

  /** `handlePhotoChange`: no file changes nothing; a non-image or a file over
      5 MiB sets an error and keeps the selection; otherwise the file is
      selected and the error cleared. */
  function PhotoChanged(f: Form, file: Option<Photo>): (r: Form)
    ensures file.None? ==> r == f
    ensures file.Some? && !StartsWith(file.value.mimeType, "image/") ==> r == f.(error := Some(InvalidImageError))
    ensures file.Some? && StartsWith(file.value.mimeType, "image/") && file.value.size > MaxPhotoBytes ==>
      r == f.(error := Some(TooLargeError))
    ensures r.photo != f.photo ==> r.photo == file && r.error.None?
    ensures file.Some? && StartsWith(file.value.mimeType, "image/") && file.value.size <= MaxPhotoBytes ==>
      r == f.(photo := file, error := None)
  {
    if file.None? then f
    else if !StartsWith(file.value.mimeType, "image/") then f.(error := Some(InvalidImageError))
    else if file.value.size > MaxPhotoBytes then f.(error := Some(TooLargeError))
    else f.(photo := file, error := None)
  }

  /** A photo of exactly 5 MiB is accepted; one byte more is refused. */
  lemma SizeBoundary(f: Form)
    ensures PhotoChanged(f, Some(Photo("image/png", 5242880))).photo == Some(Photo("image/png", 5242880))
    ensures PhotoChanged(f, Some(Photo("image/png", 5242881))).error == Some(TooLargeError)
    ensures PhotoChanged(f, Some(Photo("image/png", 5242881))).photo == f.photo
  {
  }

  /** The file reader's `onload`: the data URL becomes the preview. */
  function PreviewLoaded(f: Form, dataUrl: string): (r: Form)
    ensures r.preview == Some(dataUrl)
    ensures r.(preview := f.preview) == f
  {
    f.(preview := Some(dataUrl))
  }

  /** `removePhoto`: clears the selection and the preview, nothing else. */
  function RemovePhoto(f: Form): (r: Form)
    ensures r.photo.None? && r.preview.None?
    ensures r.(photo := f.photo, preview := f.preview) == f
  {
    f.(photo := None, preview := None)
  }

  datatype FieldName = OwnerName | OwnerEmail | SiteName | SiteSubtitle | Bio

  function Get(d: FormData, name: FieldName): string
  {
    match name
    case OwnerName => d.ownerName
    case OwnerEmail => d.ownerEmail
    case SiteName => d.siteName
    case SiteSubtitle => d.siteSubtitle
    case Bio => d.bio
  }

  /** `handleChange`: the named field takes the value; every other field,
      and everything outside the form data, is unchanged. */
  function HandleChange(f: Form, name: FieldName, value: string): (r: Form)
    ensures Get(r.data, name) == value
    ensures forall other :: other != name ==> Get(r.data, other) == Get(f.data, other)
    ensures r.(data := f.data) == f
  {
    var d := f.data;
    var d' := match name
      case OwnerName => d.(ownerName := value)
      case OwnerEmail => d.(ownerEmail := value)
      case SiteName => d.(siteName := value)
      case SiteSubtitle => d.(siteSubtitle := value)
      case Bio => d.(bio := value);
    f.(data := d')
  }

  /** What `onComplete` is called with: the form data and the selected photo. */
  datatype Submitted = Submitted(data: FormData, photo: Option<Photo>)

  /** Both required fields hold something other than white space. */
  predicate RequiredFilled(d: FormData)
  {
    Trim(d.ownerName) != "" && Trim(d.siteName) != ""
  }

  /** `handleSubmit`, given whether `onComplete` resolves: the form after the
      submission, and the callback's argument when it was called. */
  function HandleSubmit(f: Form, succeeds: bool): (r: (Form, Option<Submitted>))
    ensures r.1.Some? <==> RequiredFilled(f.data)
    ensures r.1.Some? ==> r.1.value == Submitted(f.data, f.photo)
    ensures !RequiredFilled(f.data) ==> r.0 == f.(error := Some(MissingFieldsError))
    ensures RequiredFilled(f.data) && succeeds ==>
      r.0.isSuccess && r.0.isSubmitting && r.0.error.None? && r.0.status == "Setup completed! Redirecting to your site..."
    ensures RequiredFilled(f.data) && !succeeds ==>
      r.0.error == Some(SetupFailedError) && !r.0.isSubmitting && r.0.status == "" && r.0.isSuccess == f.isSuccess
    ensures r.0.data == f.data && r.0.photo == f.photo && r.0.preview == f.preview
  {
    if !(Trim(f.data.ownerName) != "" && Trim(f.data.siteName) != "") then
      (f.(error := Some(MissingFieldsError)), None)
    else
      var sent := f.(isSubmitting := true, error := None, status := "Creating your site configuration...");
      var after := if succeeds then sent.(isSuccess := true, status := "Setup completed! Redirecting to your site...")
                   else sent.(error := Some(SetupFailedError), isSubmitting := false, status := "");
      (after, Some(Submitted(f.data, f.photo)))
  }

  /** The submit button's `disabled` flag: it tests the raw, untrimmed
      fields. */
  predicate SubmitDisabled(f: Form)
    ensures !f.isSubmitting && RequiredFilled(f.data) ==> !SubmitDisabled(f)
  {
    f.isSubmitting || f.data.ownerName == "" || f.data.siteName == ""
  }

  /** A name of only white space enables the button, yet the submission is
      refused by the trimmed check and the callback is not called. */
  lemma BlankNameEnabledButRefused(f: Form, succeeds: bool)
    requires f.data.ownerName == " " && f.data.siteName == "Site" && !f.isSubmitting
    ensures !SubmitDisabled(f)
    ensures HandleSubmit(f, succeeds).1.None?
    ensures HandleSubmit(f, succeeds).0.error == Some(MissingFieldsError)
  {
    assert LeadingWhitespace(" ") == 1;
    assert Trim(" ") == "";
  }

  /** Every form the submission lets through has both raw fields
      non-empty: the trimmed check is at least as strict as the button's. */
  lemma SentFormsHadFields(f: Form, succeeds: bool)
    requires HandleSubmit(f, succeeds).1.Some?
    ensures f.data.ownerName != "" && f.data.siteName != ""
  {
  }
}

=== FILE: work_history.dfy ===
/** The work history section: the date range, the current-position badge,
    the timeline connector, and the technologies block of each entry. Date
    formatting is an input (`format`), since locale rendering is not
    modelled; only its empty-input guard is. */
module WorkHistory {
  import opened Wrappers

  datatype Experience = Experience(
    uid: string,
    company: string,
    position: string,
    startDate: string,
    endDate: string,
    currentPosition: bool,
    description: string,
    technologies: seq<string>)

  /** `formatDate`: the empty string stays empty; anything else is handed
      to the locale formatter. */
  function FormatDate(date: string, format: string -> string): (r: string)
    ensures date == "" ==> r == ""
    ensures date != "" ==> r == format(date)
  {
    if date == "" then "" else format(date)
  }

  datatype Entry = Entry(
    range: string,
    currentBadge: bool,
    connector: bool,
    description: Option<string>,
    technologies: Option<seq<string>>)

  /** One rendered entry at position `index` of `count`. */
  function EntryView(e: Experience, index: nat, count: nat, format: string -> string): (r: Entry)
    requires index < count
    ensures r.range == FormatDate(e.startDate, format) + " - "
                       + (if e.currentPosition then "Present" else FormatDate(e.endDate, format))
    ensures r.currentBadge <==> e.currentPosition
    ensures r.connector <==> index != count - 1
    ensures r.technologies.Some? <==> |e.technologies| > 0
    ensures r.technologies.Some? ==> r.technologies.value == e.technologies
    ensures r.description.Some? <==> e.description != ""
  {
    Entry(
      FormatDate(e.startDate, format) + " - " + (if e.currentPosition then "Present" else FormatDate(e.endDate, format)),
      e.currentPosition,
      index != count - 1,
      if e.description != "" then Some(e.description) else None,
      if |e.technologies| > 0 then Some(e.technologies) else None)
  }

  datatype Section = Section(entries: seq<Entry>, emptyMessage: bool)

  function View(es: seq<Experience>, format: string -> string): (r: Section)
    ensures |r.entries| == |es|
    ensures forall i :: 0 <= i < |es| ==> r.entries[i] == EntryView(es[i], i, |es|, format)
    ensures r.emptyMessage <==> |es| == 0
  {
    Section(seq(|es|, i requires 0 <= i < |es| => EntryView(es[i], i, |es|, format)), |es| == 0)
  }

  /** Every entry but the last carries the timeline connector: the number of
      connectors is one less than the number of entries. */
  lemma ConnectorsBetweenEntries(es: seq<Experience>, format: string -> string)
    requires |es| > 0
    ensures var r := View(es, format);
      !r.entries[|es| - 1].connector && forall i :: 0 <= i < |es| - 1 ==> r.entries[i].connector
  {
  }

  /** A current position never shows an end date. */
  lemma CurrentEndsInPresent(e: Experience, index: nat, count: nat, format: string -> string)
    requires index < count && e.currentPosition
    ensures var range := EntryView(e, index, count, format).range;
      |range| >= 7 && range[|range| - 7..] == "Present"
  {
  }
}

=== FILE: wrappers.dfy ===
/** The absent-or-present value used wherever the site's code deals in
    `undefined`/`null` versus a value. */
module Wrappers {

  datatype Option<+T> = None | Some(value: T) {

    /** The held value, or `default` when there is none. */
    function GetOr(default: T): T
    {
      match this
      case Some(v) => v
      case None => default
    }
  }
}
